=== FILE: README.md ===
# nested-dkg core, modelled in Dafny

This project models the pure core of the nested (bivariate) distributed key generation:

- the bivariate polynomial and its public coefficients;
- the byte layout of dealings;
- the dealer and the combiner;
- the integer tail of ElGamal chunk decryption;
- the scheduling and collection rules inside the univariate and bivariate node drivers;
- the benchmark post-processing script `read.py`.

Everything is sequential and deterministic. Randomness, `x_for_index`, the point and scalar encodings and Lagrange interpolation are parameters.

Modules, one per concern:

| module | file | subject |
|---|---|---|
| `Wrappers` | wrappers.dfy | `Option`, `Result`, `byte`, `Id`, `Concat`, `Filter` |
| `Field` | field.dfy | scalars modulo the BLS12-381 group order `R` |
| `G2` | group.dfy | G2 points, each written as its discrete logarithm; `public_key_from_secret_key` is the homomorphism `s ↦ Point(s)` |
| `Tables` | tables.dfy | 2-D tables: pointwise `add` / `add_assign`, row-major flattening, `chunks_exact` |
| `Bivariate` | bivariate.dfy | `Polynomial` and `PublicCoefficients`: evaluation, keys, derivation of coefficients |
| `BlsBivariate` | bls_bivariate.dfy | the curve library's `BivariatePolynomial`: evaluation by a fold, `zeroize` |
| `Serialization` | serialization.dfy | coefficient, share and dealing (de)serialisation |
| `Dkg` | dkg.dfy | `generate_shares`, `combine_dealings`, `combine_signatures` |
| `ChunkRecombination` | el_gamal.dfy | chunk constants; Horner recombination and two-byte split in `dec_chunks` |
| `UnivariateDriver` | univariate_api.dfy | the 16-way message partition, share routing, per-thread collection until `t` shares |
| `BivariateDriver` | bivariate_api.dfy | peer filters, the two-phase signature collection, dealing layouts |
| `BenchResults` | bench.dfy | duration-token conversion and column means |

Modelling choices:

- **Scalars.** A scalar is an integer in `[0, R)`, with `R` the concrete BLS12-381 order. With the real `R`, which is below 2^256, not every 16-chunk value is a scalar; hence `SplitInvertsCombine` requires `DigitsValue(ds) < R`.
- **Group G2.** It is cyclic of order `R`, so a point is written as its logarithm. The model combines points only through `PointAdd`, `ScalarMul` and `PublicKeyFromSecret`.
- **Codecs.** A `Codec<T>` is an `encode`/`decode` pair. Its only known property is `FixedWidth`: every value encodes to `w` bytes and decodes back.
- **Panics.** A panic on indexing or on a table that is too short becomes a precondition. When deserialising a dealing, a failure that depends on the bytes or on the layout arguments becomes an `Err`, e.g. an `unwrap` on a record that does not decode, or `chunks_exact(0)`. The receive loops of the two signing drivers are the exception: there every received share or signature is taken to be well-formed and valid. In the source, a failure there panics the worker, as the "Left out" entries for `UnivariateDriver.Collect` and `BivariateDriver.RunSignature` say.
- **Receive loops.** Each loop that consumes network messages is a fold over a finite sequence of received messages. A method consumes a prefix of that sequence and stops exactly where the source's `while` condition first fails.

Where the benchmark script's documentation and its code differ, the model follows the code:

- A token with an unrecognised suffix is dropped, not rejected.
- A token whose number does not parse is a fatal error. It is modelled as `ParseError`, and `Convert` then returns `None`.
- `np.mean` of an empty table yields `nan` rather than a defined error. It is modelled as `Err(EmptyTable)`.
- Ragged rows make `np.mean` fail. They are modelled as `Err(RaggedRows)`.

## Model

| member | source | states |
|---|---|---|
| Bivariate.EvaluateAt | crates/types/src/bivariate.rs:42-59 | the row-by-row accumulation equals the double sum of `c[i][j]·x^i·y^j` in the field; an empty polynomial gives zero |
| Bivariate.PolySumAdd | crates/types/src/bivariate.rs:63-69 | evaluation is linear: the pointwise sum of two polynomials of one shape evaluates to the sum of their evaluations |
| Tables.AddAssign | crates/types/src/bivariate.rs:63-69 | `add_assign` keeps every row length; entry `(i, j)` becomes `a[i][j] + b[i][j]` for `j` below row 0's width and is untouched beyond it; `rhs` must be at least as large (the same loop is `PublicCoefficients::add_assign`, lines 105-111) |
| Tables.AddTablesEntries | crates/types/src/bivariate.rs:115-127 | `PublicCoefficients::add` returns a table with `a`'s rows, each of row 0's width, whose entries are the pointwise sums, i.e. what `AddAssign` leaves on a rectangular `a` |
| Bivariate.FromPolynomialAdd | crates/types/src/bivariate.rs:115-127 | deriving public coefficients commutes with addition: the coefficients of `p + q` are the `add` of the coefficients of `p` and of `q` |
| Bivariate.PCEvaluateAt | crates/types/src/bivariate.rs:80-101 | seeding with `c[0][0]` and skipping the `(0, 0)` term still yields the full double sum of `x^i·y^j·c[i][j]` |
| Bivariate.PublicKey | crates/types/src/bivariate.rs:138-140 | the evaluation at `(0, 0)` is the constant coefficient `c[0][0]` |
| Bivariate.GroupPublicKey | crates/types/src/bivariate.rs:143-145 | the group key of `g` is the double sum at `(x_for_index(g), 0)` |
| Bivariate.IndividualPublicKey | crates/types/src/bivariate.rs:148-150 | the key of `(i, j)` is the double sum at `(x_for_index(i), x_for_index(j))` |
| Bivariate.FromPolynomial | crates/types/src/bivariate.rs:192-208 | the derived table has the polynomial's row count, every row of row 0's width, and entry `(i, j)` is `pk(c[i][j])` |
| Bivariate.KeysOfPolynomial | crates/types/src/bivariate.rs:143-150 | the public coefficients evaluated at any `(x, y)` equal `pk` of the polynomial's value there, and at `(0, 0)` equal `pk(c[0][0])` |
| Serialization.SerializeCoefficients | crates/types/src/bivariate.rs:153-170 | with a 192-byte point codec the output has length `192 ×` the number of coefficients, and the record at offset `192·k` encodes the `k`-th coefficient in row-major order |
| Serialization.SerializeShares | crates/types/src/bivariate.rs:240-248 | with a 32-byte scalar codec the share bytes have length `32 ×` the number of shares, and the record at offset `32·k` encodes the `k`-th share in row-major order |
| Serialization.SerializeDealing | crates/types/src/bivariate.rs:221-250 | with a 192-byte point codec and a 32-byte scalar codec the coefficient bytes have length `192 ×` the number of coefficients and the share bytes `32 ×` the number of shares |
| Serialization.DecodeAll | crates/types/src/bivariate.rs:175-182 | decoding succeeds iff every record decodes, and then yields one value per record in order |
| Serialization.DecodeTable | crates/types/src/bivariate.rs:173-187 | reading cuts the bytes into whole records (length ÷ record size, rounded down) and yields as many whole rows of `width` decoded values as fit; entry `(i, j)` is the decoding of record `i·width + j`, the bytes `[(i·width + j)·size, (i·width + j + 1)·size)`; row width 0 is an error, as is a record that does not decode |
| Serialization.DeserializeCoefficients | crates/types/src/bivariate.rs:173-187 | `PublicCoefficients::deserialize`: 192-byte records read into rows of `t_prime`; it fails iff `t_prime = 0` or some record does not decode, and any failure with `t_prime > 0` is `InvalidPoint`; entry `(i, j)` is the decoding of record `i·t_prime + j` |
| Serialization.DeserializeDealing | crates/types/src/bivariate.rs:253-282 | the dealing reads back iff both halves do; a coefficient failure is the one reported |
| Tables.ChunksExact | crates/types/src/bivariate.rs:176-185 | `chunks_exact(w)` yields the length of `s` divided by `w` (rounded down) pieces, each of exactly `w` elements |
| Tables.ChunkAt | crates/types/src/bivariate.rs:176-185 | piece `k` of `chunks_exact(w)` is the window `[k·w, (k+1)·w)` of the input, and that window lies inside it |
| Tables.ChunksOfConcat | crates/types/src/bivariate.rs:153-187 | flattening a table of rows of width `w` and re-chunking by `w` gives the table back |
| Serialization.TableRoundTrip | crates/types/src/bivariate.rs:153-187 | reading back a table written with a fixed-width codec and the right row width gives the table |
| Serialization.DealingRoundTrip | crates/types/src/bivariate.rs:221-282 | a dealing with coefficient rows of length `t_prime` and share rows of length `group_size` deserialises to itself |
| Tables.ChunksIgnoreShortTail | crates/types/src/bivariate.rs:176-185 | appending fewer than `w` elements to whole pieces does not change `chunks_exact(w)` |
| Serialization.TrailingPartsDropped | crates/types/src/bivariate.rs:173-187 | a trailing partial row of coefficients and a trailing partial record are dropped silently |
| BlsBivariate.EvaluateAtIsDoubleSum | crates/dfinity/bls12_381/src/types/bivariate.rs:37-52 | the fold over the terms equals the double sum that `Polynomial::evaluate_at` computes, and is zero with no coefficients |
| Bivariate.Random | crates/dfinity/bls12_381/src/types/bivariate.rs:56-65 | `random((a, b))` has exactly `a` rows of `b` scalars; `Polynomial::random` in crates/types/src/bivariate.rs:29-38 builds its rows the same way and is modelled by the same member |
| BlsBivariate.Zeroize | crates/dfinity/bls12_381/src/types/bivariate.rs:68-77 | after `zeroize` the shape is unchanged and every coefficient is zero |
| BlsBivariate.ZeroizedEvaluatesToZero | crates/dfinity/bls12_381/src/types/bivariate.rs:68-77 | a zeroized polynomial evaluates to zero at every point |
| Dkg.GenerateShares | crates/bivariate-dkg/src/dkg.rs:9-23 | `n` rows of `m` shares with `shares[i][j] = poly(x_for_index(i), x_for_index(j))`; coefficients are the `t × t'` public coefficients of the drawn polynomial |
| Dkg.CombineDealingsSums | crates/bivariate-dkg/src/dkg.rs:25-38 | the combined share is the sum over all dealings of `dealing.1[i][j]`, and each combined coefficient is the sum of that coefficient over all dealings |
| Dkg.ShareSumOfHonest | crates/bivariate-dkg/src/dkg.rs:25-38 | when every dealing comes from its polynomial, the summed shares are the summed polynomial's value at the node's point |
| Dkg.CoefficientSumOfHonest | crates/bivariate-dkg/src/dkg.rs:25-38 | when every dealing comes from its polynomial, the summed coefficient `(i, j)` is `pk` of the summed polynomial's coefficient |
| Dkg.CombinedShareMatchesKey | crates/bivariate-dkg/src/tests.rs:8-21 | with honest dealers the combined coefficients are the public coefficients of the summed polynomial, and the individual key read off them is `pk` of the combined share |
| Dkg.CombineSignatures | crates/bivariate-dkg/src/dkg.rs:40-53 | `Err("Invalid Threshold")` exactly when fewer than `t` signatures are given; otherwise the interpolation of the positional samples |
| Dkg.Samples | crates/bivariate-dkg/src/dkg.rs:45-51 | the `k`-th signature is paired with `x_for_index(k)` by position, not by sender |
| ChunkRecombination.ChunkConstants | crates/dfinity/fs_ni_dkg/src/el_gamal.rs:23-39 | `CHUNK_SIZE = 2^16`, `CHUNK_MAX = CHUNK_SIZE − 1`, `NUM_CHUNKS = ⌈32/2⌉ = 16` |
| ChunkRecombination.FoundLogs | crates/dfinity/fs_ni_dkg/src/el_gamal.rs:88-98 | the list is no longer than the ciphertext, holds only found values, and is exactly the values when all were found |
| ChunkRecombination.FoundLogsInChunkOrder | crates/dfinity/fs_ni_dkg/src/el_gamal.rs:88-98 | chunks whose logarithm was not found are skipped, not zero-filled: the `m`-th logarithm kept is that of the `m`-th found chunk, the positions increase, and a position is among them exactly when its logarithm was found |
| ChunkRecombination.HornerIsValueModR | crates/dfinity/fs_ni_dkg/src/el_gamal.rs:101-108 | the accumulator is the base-65536 value of the logarithms, most significant first, reduced modulo `R` |
| ChunkRecombination.RecombineChunks | crates/dfinity/fs_ni_dkg/src/el_gamal.rs:101-121 | the output always has 16 entries, each in `[CHUNK_MIN, CHUNK_MAX]`, whatever the number of logarithms |
| ChunkRecombination.SplitPairs | crates/dfinity/fs_ni_dkg/src/el_gamal.rs:117-120 | 32 bytes split into 16 values `256·hi + lo`, each in `[0, CHUNK_MAX]` |
| ChunkRecombination.SplitInvertsCombine | crates/dfinity/fs_ni_dkg/src/el_gamal.rs:106-121 | split inverts combine: 16 found chunks whose base-65536 value is below `R` come back unchanged |
| UnivariateDriver.RangeSize | crates/univariate-dkg/src/api.rs:96 | `range_size · 16 ≤ count < (range_size + 1) · 16`, i.e. integer division by `NUM_THREADS` |
| UnivariateDriver.SliceBounds | crates/univariate-dkg/src/api.rs:99-104 | thread `i < 15` gets `messages[i·rs .. (i+1)·rs]`, thread 15 gets `messages[15·rs ..]` |
| UnivariateDriver.PartitionMessages | crates/univariate-dkg/src/api.rs:97-104 | 16 slices; all but the last have `range_size` entries; concatenated in thread order they give back the message list |
| UnivariateDriver.Route | crates/univariate-dkg/src/api.rs:171-181 | a share is routed iff `msg < 16·range_size`, to thread `msg / range_size` at local index `msg mod range_size < range_size`; otherwise it is dropped |
| UnivariateDriver.RoutedShareFindsMessage | crates/univariate-dkg/src/api.rs:171-181 | a routed local index addresses, in its thread's slice, the very message the share was for |
| UnivariateDriver.Start | crates/univariate-dkg/src/api.rs:112-115 | a thread starts with an empty entry for every local message index and no other |
| UnivariateDriver.Receive | crates/univariate-dkg/src/api.rs:124-144 | a univariate share for a pending message is stored under its sender; the entry is removed once it holds `t` shares; any other share changes nothing; other entries are untouched |
| UnivariateDriver.PendingIffFewSenders | crates/univariate-dkg/src/api.rs:117-144 | after any inbox, a message is pending iff it exists and has fewer than `max(t, 1)` distinct senders (repeats from one sender count once), and its entry holds exactly those senders |
| UnivariateDriver.DoneIffAllComplete | crates/univariate-dkg/src/api.rs:117-144 | no entry remains iff every message of the slice has `max(t, 1)` distinct senders (with `t = 0` an entry is removed after its first share) |
| UnivariateDriver.Collect | crates/univariate-dkg/src/api.rs:117-150 | the thread consumes shares while entries remain and stops at the first point where none does |
| UnivariateDriver.LastSliceLength | crates/univariate-dkg/src/api.rs:99-104 | the last slice holds `range_size + count mod 16` messages |
| UnivariateDriver.LastThreadStarves | crates/univariate-dkg/src/api.rs:171-181 | when `count mod 16 ≠ 0`, routing alone keeps thread 15 waiting forever |
| UnivariateDriver.SeventeenMessages | crates/univariate-dkg/src/api.rs:171-181 | with 17 messages, thread 15 holds 2 messages but message 16 is never routed |
| UnivariateDriver.FixedRoute | crates/univariate-dkg/src/api.rs:171-181 | the corrected rule routes exactly the indices below `count`, to one of the 16 threads |
| UnivariateDriver.FixedRouteCovers | crates/univariate-dkg/src/api.rs:99-104 | under the corrected rule every message index lands on the slice entry holding that message |
| UnivariateDriver.FixedRouteOnto | crates/univariate-dkg/src/api.rs:99-104 | under the corrected rule every entry of every slice is reached by its global index |
| BivariateDriver.OtherGroups | crates/bivariate-dkg/src/api.rs:57-69 | `ids` is exactly the bivariate nodes outside my group |
| BivariateDriver.GroupPeers | crates/bivariate-dkg/src/api.rs:71-83 | `group_ids` is exactly the members of my group other than me |
| BivariateDriver.AllButMe | crates/bivariate-dkg/src/api.rs:215-224 | in the DKG driver, `ids` is every address except me |
| BivariateDriver.Start | crates/bivariate-dkg/src/api.rs:99-112 | phase 1 starts with only my own signature, under my member index, and no group signatures |
| BivariateDriver.KeepFirst | crates/bivariate-dkg/src/api.rs:132-134 | another group's signature is stored only if that group has none yet |
| BivariateDriver.Phase1Contents | crates/bivariate-dkg/src/api.rs:114-139 | after phase 1 a member slot of my group holds the last signature from that member (or my own); another group's slot holds the first signature from it |
| BivariateDriver.EnterPhase2 | crates/bivariate-dkg/src/api.rs:141-144 | my group's combined signature is stored under my group, overwriting any earlier entry; nothing else changes |
| BivariateDriver.Phase2Contents | crates/bivariate-dkg/src/api.rs:155-181 | in phase 2 my own group's messages change nothing, the member table is frozen, and another group's slot keeps its first signature |
| BivariateDriver.CollectGroup | crates/bivariate-dkg/src/api.rs:114-139 | phase 1 consumes messages while fewer than `threshold.1` member signatures are held and stops at the first point where enough are |
| BivariateDriver.CollectGroups | crates/bivariate-dkg/src/api.rs:155-181 | phase 2 consumes messages while fewer than `threshold.0` group signatures are held and stops at the first point where enough are |
| BivariateDriver.RunSignature | crates/bivariate-dkg/src/api.rs:112-183 | the run starves in phase 1 iff the inbox never completes my group; otherwise phase 1 ends at its first close, and a signed run ends phase 2 at its first close and combines the group signatures then held |
| BivariateDriver.FirstFromAppend | crates/bivariate-dkg/src/api.rs:131-135 | the first signature from a group in `a + b` is the first in `a` if there is one, else the first in `b` |
| BivariateDriver.GroupSignaturesFirstWins | crates/bivariate-dkg/src/api.rs:131-177 | across both phases another group's slot holds the first signature it sent; my group's slot holds my combined signature |
| BivariateDriver.SignatureLayoutMisreads | crates/bivariate-dkg/src/api.rs:89 | reading a dealing with `group_size = nodes.0` does not give it back when `nodes.0 ≠ nodes.1` |
| BivariateDriver.DealtLayoutRoundTrip | crates/bivariate-dkg/src/api.rs:89 | reading with `group_size = nodes.1` and `t_prime = threshold.1` gives the dealt dealing back |
| BivariateDriver.DkgLayoutRoundTrip | crates/bivariate-dkg/src/api.rs:259-264 | the fixed layout `(11, 5)` reads a dealing back when `nodes.1 = 11` and `threshold.1 = 5`, and misreads it whenever `nodes.1 ≠ 11` |
| BenchResults.ConvertToken | read.py:9-15 | a token is dropped iff it does not end in `s` |
| BenchResults.TokenRoundTrip | read.py:10-15 | a number followed by `ms`, `µs` or `s` converts to the number, the number ÷ 1000, or the number × 1000 milliseconds; `µs` is never read as seconds |
| BenchResults.Convert | read.py:7-16 | the result is no longer than the row, and `convert([])` is `[]` |
| BenchResults.ConvertFailsIff | read.py:7-16 | conversion fails iff some token's number does not parse |
| BenchResults.ConvertAppend | read.py:7-16 | converting a concatenation is concatenating the conversions, so the input order is kept |
| BenchResults.ConvertTokens | read.py:7-16 | a row of well-formed tokens converts to one value per token, each scaled by its unit |
| BenchResults.ColumnMeans | read.py:24 | empty and ragged tables are errors (iff); otherwise entry `k` is the sum of column `k` divided by the number of rows |
| BenchResults.MeanWithinColumn | read.py:24 | each column mean lies between the column's least and greatest value |

## Left out

- Networking, async and timing: `Node`, `broadcast`, `recv`, `tokio::select!`, the intervals, `Instant` and all printing. Received messages are a finite sequence given as input.
- Threads and channels in the univariate driver. Only the partition, routing and per-thread collection rules are modelled. The coordinator's count of thread signals is reasoned about through `Collect` and `LastThreadStarves`.
- Foreign cryptography: signing, `verify_individual_sig`, `verify_combined_sig`, pairings, the baby-step giant-step search, and `PublicCoefficients::interpolate_g1`. Interpolation is a parameter of `CombineSignatures`, and the search result is the input of `RecombineChunks`.
- Point and scalar byte encodings (`to_uncompressed`, `to_bytes` and their inverses) are abstract `Codec` values. Only their width and round trip are assumed.
- `x_for_index` and the random number generator are parameters (`xFor`, `draw`).
- The `optimized-*` crates, the CLI, argument parsing and dispatch: orchestration of calls into code that is not modelled.
- File I/O: share, key, address and results files, `read.py`'s CSV reader, and numpy's print formatting.
- Random peer selection with `choose_multiple` in the bivariate driver (crates/bivariate-dkg/src/api.rs:146-150).
- The DKG driver's receive loop. It only deserialises each dealing with the fixed layout, and `DkgLayoutRoundTrip` covers that layout.
- BenchResults.ConvertToken: takes the numeric-literal parser as a parameter, because IEEE float parsing and rounding are not modelled; values are `real`.
- BenchResults.ColumnMeans: models numpy's `nan` for an empty table as `Err(EmptyTable)`, and the shape failure on ragged rows as `Err(RaggedRows)`.
- BivariateDriver.RunSignature: both combinations are a `combine` parameter over the signature map. In the source, `combine_signatures` takes a slice, so the calls at crates/bivariate-dkg/src/api.rs:141 and 183 pass a `BTreeMap` where a slice is expected. The model does not decide how a map would be read.
- BivariateDriver.RunSignature: the `unwrap` panics on decoding a point and on the combination are not modelled. Every received payload is taken to be a valid signature.
- UnivariateDriver.Collect: every received share is taken to be 96 bytes, a valid point and a valid signature, and every completed entry to combine and verify. In the source, decoding the share (crates/univariate-dkg/src/api.rs:120-122), `verify_individual_sig` (127-132), `combine_signatures` and `verify_combined_sig` (136-142) each end in `unwrap`. A failure panics the worker thread, which then never sends its signal (line 150), so the coordinator's loop (line 159) never finishes. The model does not include that outcome.
- UnivariateDriver.Route: does not model the panic of `send(...).unwrap()` on a closed channel. A thread that has finished is not modelled as closing its channel.
- Dkg.CombineDealings: states its sums through `Dkg.CombineDealingsSums`. The indexing panics of `dealings[0]` and the share tables, and `add` on a smaller table, are preconditions.
- Serialization.DeserializeDealing: models the `unwrap` panic on a record that does not decode, and `chunks_exact(0)`, as `Err` values rather than aborting.
- Bivariate.Random: states only the shape, as the source promises nothing about the values beyond being drawn from the generator.

## Findings

| source | as written | input that shows it | evidently intended | confidence | as-written member | corrected member |
|---|---|---|---|---|---|---|
| crates/univariate-dkg/src/api.rs:171-181 | a share for index `msg` goes to the first thread `i` with `msg < (i+1)·range_size`, so only `msg < 16·range_size` is routed; but thread 15's slice (lines 99-104) holds `range_size + count mod 16` messages, so its extra messages never receive shares, it never finishes, and the coordinator waits forever for its 16th signal | 17 messages: `range_size = 1`, thread 15 holds messages 15 and 16, and a share for message 16 matches no thread | route every index below the message count, sending the remainder to thread 15 | medium; not executed | UnivariateDriver.Route, UnivariateDriver.LastThreadStarves, UnivariateDriver.SeventeenMessages | UnivariateDriver.FixedRoute, UnivariateDriver.FixedRouteCovers, UnivariateDriver.FixedRouteOnto |
| crates/bivariate-dkg/src/api.rs:89 | the dealing is read back with `group_size = nodes.0`, but `generate_shares(nodes, ·)` writes share rows of `nodes.1` entries, so the share table is re-chunked with the wrong width | `nodes = (2, 3)`: the 6 shares come back as 3 rows of 2, and `dealing.1[my_id.0][my_id.1]` is the wrong share or out of range | read with `group_size = nodes.1` | medium; not executed | BivariateDriver.SignatureLayout, BivariateDriver.SignatureLayoutMisreads | BivariateDriver.DealtLayout, BivariateDriver.DealtLayoutRoundTrip |

=== FILE: bench.dfy ===
/**
 * The post-processing script `read.py`: each row of a benchmark results
 * file is a list of duration tokens such as `5ms`, `1000µs` or `2s`;
 * every token is converted to milliseconds by its suffix, and the script
 * prints the mean of every column over all rows.
 *
 * Durations are `real`s (floating-point rounding is not modelled). Parsing
 * the numeric part of a token (Python's `float`) is the parameter `parse`,
 * whose `None` stands for the `ValueError` it raises.
 */
module BenchResults {
  import opened Wrappers

  const MILLIS: string := "ms"
  const MICROS: string := "\U{00B5}s"
  const SECONDS: string := "s"

  predicate EndsWith(s: string, suffix: string)
  {
    |suffix| <= |s| && s[|s| - |suffix|..] == suffix
  }

  /** What `convert` does with one token. */
  datatype TokenOutcome = Value(ms: real) | Dropped | ParseError

  /**
   * One iteration of the loop in `convert`. The suffixes are tried in the
   * order `ms`, `µs`, `s`: the first two also end in `s`, so they must be
   * checked before it.
   */
  function ConvertToken(token: string, parse: string -> Option<real>): (r: TokenOutcome)
    ensures r.Dropped? <==> !EndsWith(token, SECONDS)
  {
    if EndsWith(token, MILLIS) then
      match parse(token[..|token| - 2]) case Some(v) => Value(v) case None => ParseError
    else if EndsWith(token, MICROS) then
      match parse(token[..|token| - 2]) case Some(v) => Value(v / 1000.0) case None => ParseError
    else if EndsWith(token, SECONDS) then
      match parse(token[..|token| - 1]) case Some(v) => Value(v * 1000.0) case None => ParseError
    else Dropped
  }

  /** The units a token can carry and how many milliseconds one of each is. */
  datatype Unit = Millis | Micros | Seconds

  function Suffix(u: Unit): string
  {
    match u
    case Millis => MILLIS
    case Micros => MICROS
    case Seconds => SECONDS
  }

  function ToMillis(u: Unit, v: real): real
  {
    match u
    case Millis => v
    case Micros => v / 1000.0
    case Seconds => v * 1000.0
  }

  /** A duration token: a numeric literal followed by a unit suffix. */
  function Token(literal: string, u: Unit): string
  {
    literal + Suffix(u)
  }

  /**
   * A token made of a literal and a unit converts to the literal's value
   * in milliseconds, provided the literal does not itself end in `m` or
   * `µ` (which would make a seconds token look like one of the others).
   */
  lemma TokenRoundTrip(literal: string, u: Unit, v: real, parse: string -> Option<real>)
    requires parse(literal) == Some(v) && PlainLiteral(literal)
    ensures ConvertToken(Token(literal, u), parse) == Value(ToMillis(u, v))
  {
    var t := Token(literal, u);
    assert t[..|t| - |Suffix(u)|] == literal;
    if u == Seconds {
      assert t[|t| - 1] == 's';
      if |literal| > 0 {
        assert t[|t| - 2] == literal[|literal| - 1];
      }
      assert !EndsWith(t, MILLIS) && !EndsWith(t, MICROS);
    } else if u == Micros {
      assert t[|t| - 2] == '\U{00B5}';
      assert !EndsWith(t, MILLIS);
    } else {
      assert t[|t| - 2..] == MILLIS;
    }
  }

  /**
   * `convert(row)`: the converted tokens in order, with tokens of no known
   * unit left out; a token of a known unit whose number does not parse
   * makes the whole call fail.
   */
  function Convert(row: seq<string>, parse: string -> Option<real>): (r: Option<seq<real>>)
    ensures r.Some? ==> |r.value| <= |row|
    ensures |row| == 0 ==> r == Some([])
  {
    if |row| == 0 then Some([])
    else
      match ConvertToken(row[0], parse)
      case ParseError => None
      case Dropped => Convert(row[1..], parse)
      case Value(v) =>
        match Convert(row[1..], parse)
        case None => None
        case Some(rest) => Some([v] + rest)
  }

  /** `convert` fails exactly when some token of a known unit has a number that does not parse. */
  lemma {:induction false} ConvertFailsIff(row: seq<string>, parse: string -> Option<real>)
    ensures Convert(row, parse).None? <==> exists k :: 0 <= k < |row| && ConvertToken(row[k], parse) == ParseError
  {
    if |row| > 0 {
      ConvertFailsIff(row[1..], parse);
      if ConvertToken(row[0], parse) != ParseError {
        forall k | 1 <= k < |row|
          ensures row[k] == row[1..][k - 1]
        {
        }
      }
    }
  }

  /** Converting two rows joined is converting each and joining the results: order is kept. */
  lemma {:induction false} ConvertAppend(a: seq<string>, b: seq<string>, parse: string -> Option<real>)
    ensures Convert(a + b, parse) ==
      (if Convert(a, parse).Some? && Convert(b, parse).Some? then Some(Convert(a, parse).value + Convert(b, parse).value)
       else None)
  {
    if |a| == 0 {
      assert a + b == b;
      if Convert(b, parse).Some? {
        assert [] + Convert(b, parse).value == Convert(b, parse).value;
      }
    } else {
      assert (a + b)[1..] == a[1..] + b;
      assert (a + b)[0] == a[0];
      ConvertAppend(a[1..], b, parse);
      var tail := Convert(a[1..] + b, parse);
      match ConvertToken(a[0], parse)
      case ParseError =>
      case Dropped =>
        assert Convert(a + b, parse) == tail;
      case Value(v) =>
        assert Convert(a + b, parse) == if tail.Some? then Some([v] + tail.value) else None;
        var rest := Convert(a[1..], parse);
        assert Convert(a, parse) == if rest.Some? then Some([v] + rest.value) else None;
        if rest.Some? && Convert(b, parse).Some? {
          assert [v] + (rest.value + Convert(b, parse).value) == ([v] + rest.value) + Convert(b, parse).value;
        }
    }
  }

  /** A numeric literal that cannot merge with a unit suffix. */
  predicate PlainLiteral(literal: string)
  {
    |literal| == 0 || (literal[|literal| - 1] != 'm' && literal[|literal| - 1] != '\U{00B5}')
  }

  /** A row of well-formed tokens converts to the milliseconds of each, in order. */
  lemma {:induction false} ConvertTokens(row: seq<string>, literals: seq<string>, units: seq<Unit>, values: seq<real>,
                                         parse: string -> Option<real>)
    requires |row| == |literals| == |units| == |values|
    requires forall k :: 0 <= k < |row| ==>
      row[k] == Token(literals[k], units[k]) && parse(literals[k]) == Some(values[k]) && PlainLiteral(literals[k])
    ensures Convert(row, parse).Some? && |Convert(row, parse).value| == |row|
    ensures forall k :: 0 <= k < |row| ==> Convert(row, parse).value[k] == ToMillis(units[k], values[k])
  {
    if |row| > 0 {
      TokenRoundTrip(literals[0], units[0], values[0], parse);
      ConvertTokens(row[1..], literals[1..], units[1..], values[1..], parse);
    }
  }

  // ----- Column means -----

  /** Why `np.mean(lines, axis=0)` has no result vector. */
  datatype MeanError = EmptyTable | RaggedRows

  /** Every row has exactly `width` entries. */
  predicate Uniform(table: seq<seq<real>>, width: nat)
  {
    forall i :: 0 <= i < |table| ==> |table[i]| == width
  }

  /** The sum of column `k` over the rows of `table`. */
  function ColumnSum(table: seq<seq<real>>, k: nat): real
    requires forall i :: 0 <= i < |table| ==> k < |table[i]|
  {
    if |table| == 0 then 0.0 else ColumnSum(table[..|table| - 1], k) + table[|table| - 1][k]
  }

  /**
   * The column-wise mean: for a non-empty table of equal-length rows,
   * entry `k` is the sum of column `k` divided by the number of rows. An
   * empty table has no mean (numpy gives `nan`), and rows of different
   * lengths make numpy raise.
   */
  method ColumnMeans(table: seq<seq<real>>) returns (r: Result<seq<real>, MeanError>)
    ensures r == Err(EmptyTable) <==> |table| == 0
    ensures r == Err(RaggedRows) <==> |table| > 0 && !Uniform(table, |table[0]|)
    ensures r.Ok? ==> |table| > 0 && Uniform(table, |table[0]|) && |r.value| == |table[0]|
    ensures r.Ok? ==> forall k :: 0 <= k < |r.value| ==> r.value[k] == ColumnSum(table, k) / (|table| as real)
  {
    if |table| == 0 {
      return Err(EmptyTable);
    }
    var width := |table[0]|;
    var i := 1;
    while i < |table|
      invariant 1 <= i <= |table|
      invariant Uniform(table[..i], width)
    {
      if |table[i]| != width {
        return Err(RaggedRows);
      }
      i := i + 1;
    }
    assert table[..|table|] == table;
    var sums := seq(width, _ => 0.0);
    i := 0;
    while i < |table|
      invariant 0 <= i <= |table| && |sums| == width
      invariant forall k :: 0 <= k < width ==> sums[k] == ColumnSum(table[..i], k)
    {
      assert table[..i + 1][..i] == table[..i];
      sums := seq(width, k requires 0 <= k < width => sums[k] + table[i][k]);
      i := i + 1;
    }
    assert table[..i] == table;
    var means := seq(width, k requires 0 <= k < width => sums[k] / (|table| as real));
    return Ok(means);
  }

  /** A column sum lies between the row count times any lower and upper bound of the column. */
  lemma {:induction false} ColumnSumBounds(table: seq<seq<real>>, k: nat, lo: real, hi: real)
    requires forall i :: 0 <= i < |table| ==> k < |table[i]| && lo <= table[i][k] <= hi
    ensures (|table| as real) * lo <= ColumnSum(table, k) <= (|table| as real) * hi
  {
    if |table| > 0 {
      ColumnSumBounds(table[..|table| - 1], k, lo, hi);
    }
  }

  /** So every column mean lies between the smallest and the largest entry of its column. */
  lemma MeanWithinColumn(table: seq<seq<real>>, k: nat, lo: real, hi: real)
    requires |table| > 0
    requires forall i :: 0 <= i < |table| ==> k < |table[i]| && lo <= table[i][k] <= hi
    ensures lo <= ColumnSum(table, k) / (|table| as real) <= hi
  {
    ColumnSumBounds(table, k, lo, hi);
    var n := |table| as real;
    var m := ColumnSum(table, k) / n;
    assert ColumnSum(table, k) == m * n;
    assert n * lo <= m * n <= n * hi;

  }
}

=== FILE: bivariate.dfy ===
/**
 * The bivariate polynomial, its public coefficients and the dealing of the
 * nested DKG (`crates/types/src/bivariate.rs`).
 *
 * A polynomial is a table of scalars where `c[i][j]` multiplies `x^i * y^j`.
 * Its public coefficients are the table of G2 points `pk(c[i][j])`.
 */
module Bivariate {
  import opened Wrappers
  import opened Field
  import opened G2
  import opened Tables

  type Polynomial = seq<seq<Scalar>>

  type PublicCoefficients = seq<seq<Point>>

  /** A dealing: the dealer's public coefficients and the table of all nodes' shares. */
  datatype Dealing = Dealing(coefficients: PublicCoefficients, shares: seq<seq<Scalar>>)

  // ----- The double sum that evaluation is meant to compute -----

  /** The term `c * x^i * y^j`, with the factors multiplied in the source's order. */
  function Term(c: Scalar, i: nat, j: nat, x: Scalar, y: Scalar): Scalar
  {
    Mul(Mul(Pow(x, i), Pow(y, j)), c)
  }

  /** The sum over `j` of the terms of row `i`. */
  function RowSum(row: seq<Scalar>, i: nat, x: Scalar, y: Scalar): Scalar
  {
    if |row| == 0 then 0
    else Add(RowSum(row[..|row| - 1], i, x, y), Term(row[|row| - 1], i, |row| - 1, x, y))
  }

  /** The sum over all `i`, `j` of `c[i][j] * x^i * y^j`. */
  function PolySum(p: Polynomial, x: Scalar, y: Scalar): Scalar
  {
    if |p| == 0 then 0
    else Add(PolySum(p[..|p| - 1], x, y), RowSum(p[|p| - 1], |p| - 1, x, y))
  }

  /** The same double sum over a table of points, each term being `c * (x^i * y^j)`. */
  function PointTerm(c: Point, i: nat, j: nat, x: Scalar, y: Scalar): Point
  {
    ScalarMul(c, Mul(Pow(x, i), Pow(y, j)))
  }

  function PointRowSum(row: seq<Point>, i: nat, x: Scalar, y: Scalar): Point
  {
    if |row| == 0 then Point(0)
    else PointAdd(PointRowSum(row[..|row| - 1], i, x, y), PointTerm(row[|row| - 1], i, |row| - 1, x, y))
  }

  function PointSum(pc: PublicCoefficients, x: Scalar, y: Scalar): Point
  {
    if |pc| == 0 then Point(0)
    else PointAdd(PointSum(pc[..|pc| - 1], x, y), PointRowSum(pc[|pc| - 1], |pc| - 1, x, y))
  }

  // ----- Polynomial -----

  /**
   * `Polynomial::random` / `BivariatePolynomial::random`: `rows` rows of
   * `cols` scalars, drawn row by row; `draw(i, j)` stands for the value the
   * random number generator yields for coefficient `(i, j)`.
   */
  function Random(rows: nat, cols: nat, draw: (nat, nat) -> Scalar): (p: Polynomial)
    ensures Rectangular(p, rows, cols)
  {
    seq(rows, i requires 0 <= i < rows => seq(cols, j requires 0 <= j < cols => draw(i, j)))
  }

  /** `x^k` by `k` multiplications, as the inner loops of `evaluate_at` compute it. */
  method PowLoop(x: Scalar, k: nat) returns (r: Scalar)
    ensures r == Pow(x, k)
  {
    r := 1;
    var n := 0;
    while n < k
      invariant 0 <= n <= k
      invariant r == Pow(x, n)
    {
      r := Mul(r, x);
      n := n + 1;
    }
  }

  /**
   * `Polynomial::evaluate_at`: adds the terms to an accumulator that starts
   * at zero, row by row.
   */
  method EvaluateAt(p: Polynomial, x: Scalar, y: Scalar) returns (r: Scalar)
    ensures r == PolySum(p, x, y)
    ensures |p| == 0 ==> r == 0
  {
    r := 0;
    var i := 0;
    while i < |p|
      invariant 0 <= i <= |p|
      invariant r == PolySum(p[..i], x, y)
    {
      var j := 0;
      while j < |p[i]|
        invariant 0 <= j <= |p[i]|
        invariant r == Add(PolySum(p[..i], x, y), RowSum(p[i][..j], i, x, y))
      {
        var xi := PowLoop(x, i);
        var yj := PowLoop(y, j);
        AddAssoc(PolySum(p[..i], x, y), RowSum(p[i][..j], i, x, y), Term(p[i][j], i, j, x, y));
        assert p[i][..j + 1][..j] == p[i][..j];
        r := Add(r, Mul(Mul(xi, yj), p[i][j]));
        j := j + 1;
      }
      assert p[i][..j] == p[i];
      assert p[..i + 1][..i] == p[..i];
      i := i + 1;
    }
    assert p[..i] == p;
  }

  /** The zero polynomial of a given shape evaluates to zero. */
  lemma {:induction false} PolySumOfZeros(p: Polynomial, x: Scalar, y: Scalar)
    requires forall i, j :: 0 <= i < |p| && 0 <= j < |p[i]| ==> p[i][j] == 0
    ensures PolySum(p, x, y) == 0
  {
    if |p| > 0 {
      PolySumOfZeros(p[..|p| - 1], x, y);
      RowSumOfZeros(p[|p| - 1], |p| - 1, x, y);
    }
  }

  lemma {:induction false} RowSumOfZeros(row: seq<Scalar>, i: nat, x: Scalar, y: Scalar)
    requires forall j :: 0 <= j < |row| ==> row[j] == 0
    ensures RowSum(row, i, x, y) == 0
  {
    if |row| > 0 {
      RowSumOfZeros(row[..|row| - 1], i, x, y);
      MulZero(Mul(Pow(x, i), Pow(y, |row| - 1)));
    }
  }

  /** The entry-wise sum of two rows. */
  function AddRows(a: seq<Scalar>, b: seq<Scalar>): (r: seq<Scalar>)
    requires |a| <= |b|
    ensures |r| == |a| && forall j :: 0 <= j < |a| ==> r[j] == Add(a[j], b[j])
  {
    seq(|a|, j requires 0 <= j < |a| => Add(a[j], b[j]))
  }

  lemma {:induction false} RowSumAdd(a: seq<Scalar>, b: seq<Scalar>, i: nat, x: Scalar, y: Scalar)
    requires |a| == |b|
    ensures RowSum(AddRows(a, b), i, x, y) == Add(RowSum(a, i, x, y), RowSum(b, i, x, y))
  {
    if |a| > 0 {
      var n := |a| - 1;
      assert AddRows(a, b)[..n] == AddRows(a[..n], b[..n]);
      RowSumAdd(a[..n], b[..n], i, x, y);
      var m := Mul(Pow(x, i), Pow(y, n));
      MulAddDistrLeft(m, a[n], b[n]);
      AddSwapMiddle(RowSum(a[..n], i, x, y), RowSum(b[..n], i, x, y), Mul(m, a[n]), Mul(m, b[n]));
    }
  }

  /**
   * Evaluation is linear: the sum of two polynomials of one shape (what
   * `add_assign` leaves in `self`) evaluates to the sum of the evaluations.
   */
  lemma {:induction false} PolySumAdd(p: Polynomial, q: Polynomial, cols: nat, x: Scalar, y: Scalar)
    requires Rectangular(p, |p|, cols) && Rectangular(q, |p|, cols)
    ensures PolySum(AddTables(p, q, Add), x, y) == Add(PolySum(p, x, y), PolySum(q, x, y))
  {
    if |p| == 0 {
      return;
    }
    var n := |p| - 1;
    var s := AddTables(p, q, Add);
    AddTablesLastRow(p, q, cols);
    RowSumAdd(p[n], q[n], n, x, y);
    if n > 0 {
      PolySumAdd(p[..n], q[..n], cols, x, y);
    }
    PolySumSplit(s, p, q, x, y);
  }

  /** If the last rows and the other rows each add up, so do the whole tables. */
  lemma PolySumSplit(s: Polynomial, p: Polynomial, q: Polynomial, x: Scalar, y: Scalar)
    requires |s| == |p| == |q| > 0
    requires RowSum(s[|s| - 1], |s| - 1, x, y) == Add(RowSum(p[|s| - 1], |s| - 1, x, y), RowSum(q[|s| - 1], |s| - 1, x, y))
    requires |s| > 1 ==> PolySum(s[..|s| - 1], x, y) == Add(PolySum(p[..|s| - 1], x, y), PolySum(q[..|s| - 1], x, y))
    ensures PolySum(s, x, y) == Add(PolySum(p, x, y), PolySum(q, x, y))
  {
    var n := |s| - 1;
    var rs, rp, rq := RowSum(s[n], n, x, y), RowSum(p[n], n, x, y), RowSum(q[n], n, x, y);
    if n == 0 {
      AddZero(rs);
      AddZero(rp);
      AddZero(rq);
    } else {
      AddSwapMiddle(PolySum(p[..n], x, y), PolySum(q[..n], x, y), rp, rq);
    }
  }

  /** The sum of two tables of one shape is the sum of all rows but the last, then the sum of the last rows. */
  lemma AddTablesLastRow(p: Polynomial, q: Polynomial, cols: nat)
    requires Rectangular(p, |p|, cols) && Rectangular(q, |p|, cols) && |p| > 0
    ensures |AddTables(p, q, Add)| == |p|
    ensures AddTables(p, q, Add)[|p| - 1] == AddRows(p[|p| - 1], q[|p| - 1])
    ensures |p| > 1 ==> AddTables(p, q, Add)[..|p| - 1] == AddTables(p[..|p| - 1], q[..|p| - 1], Add)
  {
    var n := |p| - 1;
    AddTablesEntries(p, q, Add);
    assert AddTables(p, q, Add)[n] == AddRows(p[n], q[n]);
    if n > 0 {
      AddTablesEntries(p[..n], q[..n], Add);
    }
  }

  // ----- Public coefficients -----

  /**
   * `From<&Polynomial> for PublicCoefficients`: the key of every coefficient,
   * in a table whose rows all have the width of the polynomial's first row.
   */
  function FromPolynomial(p: Polynomial): (pc: PublicCoefficients)
    requires forall i :: 0 <= i < |p| ==> |p[0]| <= |p[i]|
    ensures |pc| == |p|
    ensures |p| > 0 ==> Rectangular(pc, |p|, |p[0]|)
    ensures forall i, j :: 0 <= i < |p| && 0 <= j < |p[0]| ==> pc[i][j] == PublicKeyFromSecret(p[i][j])
  {
    seq(|p|, i requires 0 <= i < |p| =>
      seq(|p[0]|, j requires 0 <= j < |p[0]| => PublicKeyFromSecret(p[i][j])))
  }

  /**
   * `PublicCoefficients::evaluate_at`: the accumulator starts at `c[0][0]`
   * and the `(0, 0)` term is skipped; the result is nevertheless the full
   * double sum.
   */
  method PCEvaluateAt(pc: PublicCoefficients, x: Scalar, y: Scalar) returns (r: Point)
    requires |pc| > 0 && |pc[0]| > 0
    ensures r == PointSum(pc, x, y)
  {
    r := pc[0][0];
    var i := 0;
    while i < |pc|
      invariant 0 <= i <= |pc|
      invariant i > 0 ==> r == PointSum(pc[..i], x, y)
      invariant i == 0 ==> r == pc[0][0]
    {
      if i > 0 {
        PointRowStart(pc, i, x, y);
      }
      var j := 0;
      while j < |pc[i]|
        invariant 0 <= j <= |pc[i]|
        invariant i == 0 && j == 0 ==> r == pc[0][0]
        invariant i > 0 || j > 0 ==>
          r == PointAdd(PointSum(pc[..i], x, y), PointRowSum(pc[i][..j], i, x, y))
      {
        if i == 0 && j == 0 {
          PointSumFirst(pc, x, y);
        } else {
          var xi := PowLoop(x, i);
          var yj := PowLoop(y, j);
          PointSumStep(pc, i, j, x, y);
          r := PointAdd(r, ScalarMul(pc[i][j], Mul(xi, yj)));
        }
        j := j + 1;
      }
      assert pc[i][..j] == pc[i];
      PointSumRowDone(pc, i, x, y);
      i := i + 1;
    }
    assert pc[..i] == pc;
  }

  /** Before its first term, row `i` adds nothing. */
  lemma PointRowStart(pc: PublicCoefficients, i: nat, x: Scalar, y: Scalar)
    requires i < |pc|
    ensures PointAdd(PointSum(pc[..i], x, y), PointRowSum(pc[i][..0], i, x, y)) == PointSum(pc[..i], x, y)
  {
    assert pc[i][..0] == [];
    AddZero(PointSum(pc[..i], x, y).dlog);
  }

  /** The seed `c[0][0]` is the double sum over the first entry alone. */
  lemma PointSumFirst(pc: PublicCoefficients, x: Scalar, y: Scalar)
    requires |pc| > 0 && |pc[0]| > 0
    ensures PointAdd(PointSum(pc[..0], x, y), PointRowSum(pc[0][..1], 0, x, y)) == pc[0][0]
  {
    var c, row := pc[0][0], pc[0][..1];
    assert row[..0] == [] && row[0] == c;
    MulOne(1);
    MulOne(c.dlog);
    assert PointTerm(c, 0, 0, x, y) == c;
    AddZero(c.dlog);
    assert PointRowSum(row, 0, x, y) == c;
  }

  /** Adding term `(i, j)` extends the partial sum by one entry of row `i`. */
  lemma PointSumStep(pc: PublicCoefficients, i: nat, j: nat, x: Scalar, y: Scalar)
    requires i < |pc| && j < |pc[i]|
    ensures PointAdd(PointAdd(PointSum(pc[..i], x, y), PointRowSum(pc[i][..j], i, x, y)), PointTerm(pc[i][j], i, j, x, y))
         == PointAdd(PointSum(pc[..i], x, y), PointRowSum(pc[i][..j + 1], i, x, y))
  {
    assert pc[i][..j + 1][..j] == pc[i][..j];
    PointAddAssoc(PointSum(pc[..i], x, y), PointRowSum(pc[i][..j], i, x, y), PointTerm(pc[i][j], i, j, x, y));
  }

  /** A finished row closes the partial sum over the rows so far. */
  lemma PointSumRowDone(pc: PublicCoefficients, i: nat, x: Scalar, y: Scalar)
    requires i < |pc|
    ensures PointAdd(PointSum(pc[..i], x, y), PointRowSum(pc[i], i, x, y)) == PointSum(pc[..i + 1], x, y)
  {
    assert pc[..i + 1][..i] == pc[..i];
  }

  /** The public coefficients of a polynomial evaluate to the key of the polynomial's value. */
  lemma {:induction false} PointSumOfKeys(p: Polynomial, cols: nat, x: Scalar, y: Scalar)
    requires Rectangular(p, |p|, cols)
    ensures PointSum(FromPolynomial(p), x, y) == PublicKeyFromSecret(PolySum(p, x, y))
  {
    if |p| == 0 {
      return;
    }
    var n := |p| - 1;
    var pc := FromPolynomial(p);
    PointRowSumOfKeys(p[n], pc[n], n, x, y);
    if n == 0 {
      assert PointSum(pc[..0], x, y) == Point(0);
    } else {
      assert pc[..n] == FromPolynomial(p[..n]);
      PointSumOfKeys(p[..n], cols, x, y);
    }
  }

  lemma {:induction false} PointRowSumOfKeys(row: seq<Scalar>, keys: seq<Point>, i: nat, x: Scalar, y: Scalar)
    requires |keys| == |row| && forall j :: 0 <= j < |row| ==> keys[j] == PublicKeyFromSecret(row[j])
    ensures PointRowSum(keys, i, x, y) == PublicKeyFromSecret(RowSum(row, i, x, y))
  {
    if |row| > 0 {
      var n := |row| - 1;
      PointRowSumOfKeys(row[..n], keys[..n], i, x, y);
      MulComm(row[n], Mul(Pow(x, i), Pow(y, n)));
    }
  }

  /** `public_key`: the evaluation at `(0, 0)`, which is the constant coefficient. */
  method PublicKey(pc: PublicCoefficients) returns (r: Point)
    requires |pc| > 0 && |pc[0]| > 0
    ensures r == PointSum(pc, 0, 0)
    ensures r == pc[0][0]
  {
    r := PCEvaluateAt(pc, 0, 0);
    PointSumAtOrigin(pc);
  }

  /** Every term other than `(0, 0)` vanishes at the origin. */
  lemma {:induction false} PointSumAtOrigin(pc: PublicCoefficients)
    requires |pc| > 0 && |pc[0]| > 0
    ensures PointSum(pc, 0, 0) == pc[0][0]
  {
    var n := |pc| - 1;
    if n == 0 {
      PointRowSumAtOrigin(pc[0], 0);
      assert PointSum(pc[..0], 0, 0) == Point(0);
      AddZero(pc[0][0].dlog);
    } else {
      PointSumAtOrigin(pc[..n]);
      PointRowSumVanishes(pc[n], n, 0);
      AddZero(pc[0][0].dlog);
    }
  }

  /** In row 0 at the origin only the first entry survives. */
  lemma {:induction false} PointRowSumAtOrigin(row: seq<Point>, i: nat)
    requires |row| > 0 && i == 0
    ensures PointRowSum(row, i, 0, 0) == row[0]
  {
    var n := |row| - 1;
    if n == 0 {
      assert PointRowSum(row[..0], i, 0, 0) == Point(0);
      MulOne(1);
      MulOne(row[0].dlog);
      AddZero(row[0].dlog);
    } else {
      PointRowSumAtOrigin(row[..n], i);
      OriginTermVanishes(row[n], i, n);
      AddZero(row[0].dlog);
    }
  }

  /** A row with `i > 0`, or the tail of a row, contributes nothing at the origin. */
  lemma {:induction false} PointRowSumVanishes(row: seq<Point>, i: nat, y: Scalar)
    requires i > 0 && y == 0
    ensures PointRowSum(row, i, 0, y) == Point(0)
  {
    if |row| > 0 {
      var n := |row| - 1;
      PointRowSumVanishes(row[..n], i, y);
      OriginTermVanishes(row[n], i, n);
      AddZero(0);
    }
  }

  /** The term `(i, j)` vanishes at the origin unless `i = j = 0`. */
  lemma OriginTermVanishes(c: Point, i: nat, j: nat)
    requires i > 0 || j > 0
    ensures PointTerm(c, i, j, 0, 0) == Point(0)
  {
    if i > 0 {
      MulZero(Pow(0, i - 1));
      MulZero(Pow(0, j));
    } else {
      MulZero(Pow(0, j - 1));
      MulZero(Pow(0, i));
    }
    MulZero(c.dlog);
  }

  /** `group_public_key`: the evaluation at `(x_for_index(g), 0)`. */
  method GroupPublicKey(pc: PublicCoefficients, g: nat, xFor: nat -> Scalar) returns (r: Point)
    requires |pc| > 0 && |pc[0]| > 0
    ensures r == PointSum(pc, xFor(g), 0)
  {
    r := PCEvaluateAt(pc, xFor(g), 0);
  }

  /** `individual_public_key`: the evaluation at `(x_for_index(i), x_for_index(j))`. */
  method IndividualPublicKey(pc: PublicCoefficients, index: (nat, nat), xFor: nat -> Scalar) returns (r: Point)
    requires |pc| > 0 && |pc[0]| > 0
    ensures r == PointSum(pc, xFor(index.0), xFor(index.1))
  {
    r := PCEvaluateAt(pc, xFor(index.0), xFor(index.1));
  }

  /**
   * Keys derived from a polynomial's public coefficients are the keys of the
   * polynomial's values: the individual key of `(i, j)` is `pk(f(x_i, x_j))`,
   * the group key of `g` is `pk(f(x_g, 0))` and the public key is `pk(f(0, 0))`.
   */
  lemma KeysOfPolynomial(p: Polynomial, cols: nat, x: Scalar, y: Scalar)
    requires Rectangular(p, |p|, cols) && |p| > 0 && cols > 0
    ensures PointSum(FromPolynomial(p), x, y) == PublicKeyFromSecret(PolySum(p, x, y))
    ensures PointSum(FromPolynomial(p), 0, 0) == PublicKeyFromSecret(p[0][0])
  {
    PointSumOfKeys(p, cols, x, y);
    PointSumAtOrigin(FromPolynomial(p));
  }

  /**
   * Deriving public coefficients commutes with addition, so the sum of two
   * dealers' coefficients (`PublicCoefficients::add`) is the coefficients of
   * the sum of their polynomials.
   */
  lemma FromPolynomialAdd(p: Polynomial, q: Polynomial, cols: nat)
    requires Rectangular(p, |p|, cols) && Rectangular(q, |p|, cols)
    ensures AddFits(FromPolynomial(p), FromPolynomial(q))
    ensures FromPolynomial(AddTables(p, q, Add)) == AddTables(FromPolynomial(p), FromPolynomial(q), PointAdd)
  {
    if |p| == 0 {
      return;
    }
    var s := AddTables(p, q, Add);
    AddTablesEntries(p, q, Add);
    var l := FromPolynomial(s);
    var r := AddTables(FromPolynomial(p), FromPolynomial(q), PointAdd);
    AddTablesEntries(FromPolynomial(p), FromPolynomial(q), PointAdd);
    forall i | 0 <= i < |p|
      ensures l[i] == r[i]
    {
      forall j | 0 <= j < cols
        ensures l[i][j] == r[i][j]
      {
        PublicKeyAdditive(p[i][j], q[i][j]);
      }
    }
  }
}

=== FILE: bivariate_api.dfy ===
/**
 * The pure rules inside the node driver of the bivariate (nested)
 * threshold-signature benchmark (`crates/bivariate-dkg/src/api.rs`): the
 * peer sets a node sends to, the two signature-collection loops of
 * `run_single_node_threshold_signature` as folds over the sequence of
 * received `(sender, signature)` messages, and the table layout each
 * driver passes to `Dealing::deserialize`.
 *
 * A node is identified by `(group, member)`. In phase 1 it gathers
 * partial signatures from its own group until it has `threshold.1` of
 * them and combines them into its group's signature; in phase 2 it gathers
 * one signature per group until it has `threshold.0`. Signing, the
 * network, the random choice of recipients and the combination itself are
 * parameters or left out.
 */
module BivariateDriver {
  import opened Wrappers
  import opened Field
  import opened G2
  import opened Tables
  import opened Bivariate
  import opened Serialization

  // ----- Peer sets -----

  /** `ids` of the signature driver: the nodes of every group but mine, in address order. */
  function OtherGroups(addresses: seq<Id>, me: (nat, nat)): (r: seq<Id>)
    ensures |r| <= |addresses|
    ensures forall id :: id in r <==> id in addresses && id.Bivariate? && id.group != me.0
  {
    Filter(addresses, (id: Id) => id.Bivariate? && id.group != me.0)
  }

  /** `group_ids`: the other members of my group, in address order. */
  function GroupPeers(addresses: seq<Id>, me: (nat, nat)): (r: seq<Id>)
    ensures |r| <= |addresses|
    ensures forall id :: id in r <==> id in addresses && id.Bivariate? && id.group == me.0 && id.member != me.1
  {
    Filter(addresses, (id: Id) => id.Bivariate? && id.group == me.0 && id.member != me.1)
  }

  /** `ids` of the DKG driver: every address but my own. */
  function AllButMe(addresses: seq<Id>, me: (nat, nat)): (r: seq<Id>)
    ensures |r| <= |addresses|
    ensures forall id :: id in r <==> id in addresses && id != Bivariate(me.0, me.1)
  {
    Filter(addresses, (id: Id) => id != Bivariate(me.0, me.1))
  }

  /**
   * The peer sets split the bivariate addresses: each is me, a member of my
   * group or a node of another group, and nothing is in two of these; the
   * DKG recipients are exactly the signature driver's two sets together
   * with any non-bivariate address.
   */
  lemma PeerSetsPartition(addresses: seq<Id>, me: (nat, nat), id: Id)
    requires id in addresses
    ensures id.Bivariate? ==>
      (if id == Bivariate(me.0, me.1) then 1 else 0) +
      (if id in GroupPeers(addresses, me) then 1 else 0) +
      (if id in OtherGroups(addresses, me) then 1 else 0) == 1
    ensures id in AllButMe(addresses, me) <==>
      id in GroupPeers(addresses, me) || id in OtherGroups(addresses, me) || id.Univariate?
  {
  }

  // ----- The collection loops -----

  /** A received message: the sender's identifier and its decoded signature. */
  datatype Message<G> = Message(from: Id, sig: G)

  /**
   * `group_partial_sigs` (partial signatures of my group, by member) and
   * `all_group_sigs` (one signature per group, by group).
   */
  datatype Collected<G> = Collected(groupPartial: map<nat, G>, allGroup: map<nat, G>)

  function Lookup<K, V>(m: map<K, V>, k: K): Option<V>
  {
    if k in m then Some(m[k]) else None
  }

  /** Phase 1 starts with my own signature under my member index and no group signatures. */
  function Start<G>(me: (nat, nat), mySig: G): (s: Collected<G>)
    ensures s.groupPartial.Keys == {me.1} && s.groupPartial[me.1] == mySig
    ensures |s.allGroup| == 0
  {
    Collected(map[me.1 := mySig], map[])
  }

  /**
   * A signature from another group is kept only when that group has none
   * yet (the first one wins).
   */
  function KeepFirst<G>(all: map<nat, G>, group: nat, sig: G): (r: map<nat, G>)
    ensures r.Keys == all.Keys + {group}
    ensures forall g :: g in all ==> r[g] == all[g]
    ensures group !in all ==> r[group] == sig
  {
    if group in all then all else all[group := sig]
  }

  /**
   * One iteration of the phase-1 loop: a signature from my group is stored
   * under its member index, replacing an earlier one; one from another
   * group is kept if it is that group's first; a non-bivariate sender is
   * ignored.
   */
  function Phase1Step<G>(s: Collected<G>, msg: Message<G>, me: (nat, nat)): Collected<G>
  {
    match msg.from
    case Univariate(_) => s
    case Bivariate(i, j) =>
      if i == me.0 then s.(groupPartial := s.groupPartial[j := msg.sig])
      else s.(allGroup := KeepFirst(s.allGroup, i, msg.sig))
  }

  /** One iteration of the phase-2 loop: my own group's messages are ignored. */
  function Phase2Step<G>(s: Collected<G>, msg: Message<G>, me: (nat, nat)): Collected<G>
  {
    match msg.from
    case Univariate(_) => s
    case Bivariate(i, _) =>
      if i == me.0 then s
      else s.(allGroup := KeepFirst(s.allGroup, i, msg.sig))
  }

  function Phase1<G>(s: Collected<G>, msgs: seq<Message<G>>, me: (nat, nat)): Collected<G>
  {
    if |msgs| == 0 then s else Phase1Step(Phase1(s, msgs[..|msgs| - 1], me), msgs[|msgs| - 1], me)
  }

  function Phase2<G>(s: Collected<G>, msgs: seq<Message<G>>, me: (nat, nat)): Collected<G>
  {
    if |msgs| == 0 then s else Phase2Step(Phase2(s, msgs[..|msgs| - 1], me), msgs[|msgs| - 1], me)
  }

  /** The signature of the first message in `msgs` from group `g`. */
  function FirstFrom<G>(msgs: seq<Message<G>>, g: nat): Option<G>
  {
    if |msgs| == 0 then None
    else
      var last := msgs[|msgs| - 1];
      match FirstFrom(msgs[..|msgs| - 1], g)
      case Some(sig) => Some(sig)
      case None => if last.from.Bivariate? && last.from.group == g then Some(last.sig) else None
  }

  /** The signature of the last message in `msgs` from node `(g, j)`. */
  function LastFrom<G>(msgs: seq<Message<G>>, g: nat, j: nat): Option<G>
  {
    if |msgs| == 0 then None
    else
      var last := msgs[|msgs| - 1];
      if last.from == Bivariate(g, j) then Some(last.sig) else LastFrom(msgs[..|msgs| - 1], g, j)
  }

  /**
   * After phase 1 over `msgs`: the entry of member `j` of my group is the
   * last signature that member sent, or the earlier entry if it sent none;
   * the entry of another group is the one already held, or else the first
   * signature that group sent.
   */
  lemma {:induction false} Phase1Contents<G>(s: Collected<G>, msgs: seq<Message<G>>, me: (nat, nat), j: nat, g: nat)
    requires g != me.0
    ensures Lookup(Phase1(s, msgs, me).groupPartial, j) ==
      (match LastFrom(msgs, me.0, j) case Some(sig) => Some(sig) case None => Lookup(s.groupPartial, j))
    ensures Lookup(Phase1(s, msgs, me).allGroup, g) ==
      (if g in s.allGroup then Some(s.allGroup[g]) else FirstFrom(msgs, g))
  {
    if |msgs| > 0 {
      Phase1Contents(s, msgs[..|msgs| - 1], me, j, g);
    }
  }

  /**
   * Phase 2 leaves my group's partial signatures alone and, for every other
   * group, keeps the signature already held or else the first that group sent.
   */
  lemma {:induction false} Phase2Contents<G>(s: Collected<G>, msgs: seq<Message<G>>, me: (nat, nat), g: nat)
    requires g != me.0
    ensures Phase2(s, msgs, me).groupPartial == s.groupPartial
    ensures Lookup(Phase2(s, msgs, me).allGroup, g) ==
      (if g in s.allGroup then Some(s.allGroup[g]) else FirstFrom(msgs, g))
    ensures Lookup(Phase2(s, msgs, me).allGroup, me.0) == Lookup(s.allGroup, me.0)
  {
    if |msgs| > 0 {
      Phase2Contents(s, msgs[..|msgs| - 1], me, g);
    }
  }

  /** The phase-1 loop condition still holds after `prefix`. */
  predicate Phase1Open<G>(me: (nat, nat), mySig: G, prefix: seq<Message<G>>, t1: nat)
  {
    |Phase1(Start(me, mySig), prefix, me).groupPartial| < t1
  }

  /** The phase-2 loop condition still holds after `prefix` of the phase-2 traffic. */
  predicate Phase2Open<G>(s: Collected<G>, prefix: seq<Message<G>>, me: (nat, nat), t0: nat)
  {
    |Phase2(s, prefix, me).allGroup| < t0
  }

  /**
   * How a run ends: with the final signature, or waiting for ever because
   * the inbox ran out in phase 1 or in phase 2.
   */
  datatype Outcome<G> = Signed(sig: G, phase1End: nat, phase2End: nat) | GroupStarved | AllStarved(phase1End: nat)

  /** My group's signature stored under my group index, replacing whatever was there. */
  function EnterPhase2<G>(s: Collected<G>, me: (nat, nat), groupSig: G): (r: Collected<G>)
    ensures r.groupPartial == s.groupPartial
    ensures r.allGroup.Keys == s.allGroup.Keys + {me.0} && r.allGroup[me.0] == groupSig
    ensures forall g :: g in s.allGroup && g != me.0 ==> r.allGroup[g] == s.allGroup[g]
  {
    s.(allGroup := s.allGroup[me.0 := groupSig])
  }

  /**
   * The phase-1 loop: consumes messages while fewer than `t1` partial
   * signatures of my group are held, stopping at the first point where
   * there are enough or when the inbox runs out.
   */
  method CollectGroup<G>(me: (nat, nat), t1: nat, mySig: G, inbox: seq<Message<G>>)
    returns (s: Collected<G>, used: nat)
    ensures used <= |inbox|
    ensures s == Phase1(Start(me, mySig), inbox[..used], me)
    ensures forall k :: 0 <= k < used ==> Phase1Open(me, mySig, inbox[..k], t1)
    ensures |s.groupPartial| < t1 ==> used == |inbox|
  {
    s := Start(me, mySig);
    used := 0;
    while used < |inbox| && |s.groupPartial| < t1
      invariant used <= |inbox|
      invariant s == Phase1(Start(me, mySig), inbox[..used], me)
      invariant forall k :: 0 <= k < used ==> Phase1Open(me, mySig, inbox[..k], t1)
    {
      assert Phase1Open(me, mySig, inbox[..used], t1);
      assert inbox[..used + 1][..used] == inbox[..used];
      s := Phase1Step(s, inbox[used], me);
      used := used + 1;
    }
  }

  /**
   * The phase-2 loop over `msgs` from state `entry`: consumes messages while
   * fewer than `t0` groups are covered.
   */
  method CollectGroups<G>(entry: Collected<G>, me: (nat, nat), t0: nat, msgs: seq<Message<G>>)
    returns (s: Collected<G>, used: nat)
    ensures used <= |msgs|
    ensures s == Phase2(entry, msgs[..used], me)
    ensures forall k :: 0 <= k < used ==> Phase2Open(entry, msgs[..k], me, t0)
    ensures |s.allGroup| < t0 ==> used == |msgs|
  {
    s := entry;
    used := 0;
    while used < |msgs| && |s.allGroup| < t0
      invariant used <= |msgs|
      invariant s == Phase2(entry, msgs[..used], me)
      invariant forall k :: 0 <= k < used ==> Phase2Open(entry, msgs[..k], me, t0)
    {
      assert Phase2Open(entry, msgs[..used], me, t0);
      assert msgs[..used + 1][..used] == msgs[..used];
      s := Phase2Step(s, msgs[used], me);
      used := used + 1;
    }
  }

  /** The state phase 2 starts from, after phase 1 consumed `p` messages. */
  function Phase2Entry<G>(me: (nat, nat), t1: nat, mySig: G, inbox: seq<Message<G>>, p: nat,
                          combine: (map<nat, G>, nat) -> G): Collected<G>
    requires p <= |inbox|
  {
    var s1 := Phase1(Start(me, mySig), inbox[..p], me);
    EnterPhase2(s1, me, combine(s1.groupPartial, t1))
  }

  /**
   * The two loops of `run_single_node_threshold_signature` over the inbox.
   * Phase 1 runs until `threshold.1` partial signatures of my group are
   * held; my group's signature, the combination of those, is then stored
   * under my group; phase 2 runs over the following messages until
   * `threshold.0` groups are covered, and the result is their combination.
   */
  method RunSignature<G>(me: (nat, nat), threshold: (nat, nat), mySig: G, inbox: seq<Message<G>>,
                         combine: (map<nat, G>, nat) -> G)
    returns (out: Outcome<G>)
    ensures out.GroupStarved? <==> (Phase1Open(me, mySig, inbox, threshold.1) &&
      forall k :: 0 <= k < |inbox| ==> Phase1Open(me, mySig, inbox[..k], threshold.1))
    ensures out.Signed? || out.AllStarved? ==>
      out.phase1End <= |inbox| && !Phase1Open(me, mySig, inbox[..out.phase1End], threshold.1) &&
      forall k :: 0 <= k < out.phase1End ==> Phase1Open(me, mySig, inbox[..k], threshold.1)
    ensures out.Signed? ==> (out.phase1End <= out.phase2End <= |inbox| &&
      var entry := Phase2Entry(me, threshold.1, mySig, inbox, out.phase1End, combine);
      var msgs := inbox[out.phase1End..];
      !Phase2Open(entry, msgs[..out.phase2End - out.phase1End], me, threshold.0) &&
      (forall k :: 0 <= k < out.phase2End - out.phase1End ==> Phase2Open(entry, msgs[..k], me, threshold.0)) &&
      out.sig == combine(Phase2(entry, msgs[..out.phase2End - out.phase1End], me).allGroup, threshold.0))
    ensures out.AllStarved? ==>
      Phase2Open(Phase2Entry(me, threshold.1, mySig, inbox, out.phase1End, combine), inbox[out.phase1End..], me, threshold.0)
  {
    var s1, p1 := CollectGroup(me, threshold.1, mySig, inbox);
    if |s1.groupPartial| < threshold.1 {
      assert inbox[..p1] == inbox;
      return GroupStarved;
    }
    assert !Phase1Open(me, mySig, inbox[..p1], threshold.1);
    if p1 == |inbox| {
      assert inbox[..p1] == inbox;
    }
    var entry := EnterPhase2(s1, me, combine(s1.groupPartial, threshold.1));
    assert entry == Phase2Entry(me, threshold.1, mySig, inbox, p1, combine);
    var msgs := inbox[p1..];
    var s2, p2 := CollectGroups(entry, me, threshold.0, msgs);
    if |s2.allGroup| < threshold.0 {
      assert msgs[..p2] == msgs;
      return AllStarved(p1);
    }
    return Signed(combine(s2.allGroup, threshold.0), p1, p1 + p2);
  }

  lemma {:induction false} FirstFromAppend<G>(a: seq<Message<G>>, b: seq<Message<G>>, g: nat)
    ensures FirstFrom(a + b, g) == if FirstFrom(a, g).Some? then FirstFrom(a, g) else FirstFrom(b, g)
  {
    if |b| > 0 {
      assert (a + b)[..|a + b| - 1] == a + b[..|b| - 1];
      FirstFromAppend(a, b[..|b| - 1], g);
    } else {
      assert a + b == a;
    }
  }

  /**
   * Across both phases, the signature held for another group is the first
   * one that group sent, and the one held for my group is my group's
   * combined signature.
   */
  lemma GroupSignaturesFirstWins<G>(me: (nat, nat), t1: nat, mySig: G, inbox: seq<Message<G>>, p1: nat, p2: nat,
                                    combine: (map<nat, G>, nat) -> G, g: nat)
    requires p1 <= p2 <= |inbox| && g != me.0
    ensures var entry := Phase2Entry(me, t1, mySig, inbox, p1, combine);
      Lookup(Phase2(entry, inbox[p1..p2], me).allGroup, g) == FirstFrom(inbox[..p2], g)
    ensures var entry := Phase2Entry(me, t1, mySig, inbox, p1, combine);
      var s1 := Phase1(Start(me, mySig), inbox[..p1], me);
      Lookup(Phase2(entry, inbox[p1..p2], me).allGroup, me.0) == Some(combine(s1.groupPartial, t1))
  {
    var entry := Phase2Entry(me, t1, mySig, inbox, p1, combine);
    Phase1Contents(Start(me, mySig), inbox[..p1], me, me.1, g);
    Phase2Contents(entry, inbox[p1..p2], me, g);
    FirstFromAppend(inbox[..p1], inbox[p1..p2], g);
    assert inbox[..p1] + inbox[p1..p2] == inbox[..p2];
  }

  // ----- Table layouts passed to Dealing::deserialize -----

  /**
   * The signature driver reads the dealing file with `group_size = nodes.0`
   * and `t_prime = threshold.1`.
   */
  function SignatureLayout(nodes: (nat, nat), threshold: (nat, nat)): (nat, nat)
  {
    (nodes.0, threshold.1)
  }

  /** The DKG driver reads every received dealing with `(11, 5)`. */
  function DkgLayout(nodes: (nat, nat), threshold: (nat, nat)): (nat, nat)
  {
    (11, 5)
  }

  /**
   * The layout that matches `generate_shares(nodes, threshold)`: share rows
   * hold `nodes.1` entries and coefficient rows `threshold.1`.
   */
  function DealtLayout(nodes: (nat, nat), threshold: (nat, nat)): (nat, nat)
  {
    (nodes.1, threshold.1)
  }

  /** The shape `generate_shares(nodes, threshold)` gives a dealing. */
  predicate DealtShape(d: Dealing, nodes: (nat, nat), threshold: (nat, nat))
  {
    Rectangular(d.shares, nodes.0, nodes.1) && Rectangular(d.coefficients, threshold.0, threshold.1)
  }

  /**
   * Reading with the layout of the dealt shape gives the dealing back
   * (for non-degenerate widths).
   */
  lemma DealtLayoutRoundTrip(d: Dealing, nodes: (nat, nat), threshold: (nat, nat),
                             points: Codec<Point>, scalars: Codec<Scalar>)
    requires FixedWidth(points, POINT_BYTES) && FixedWidth(scalars, SCALAR_BYTES)
    requires DealtShape(d, nodes, threshold) && nodes.1 > 0 && threshold.1 > 0
    ensures var bytes := SerializeDealing(d, points, scalars);
      var (groupSize, tPrime) := DealtLayout(nodes, threshold);
      DeserializeDealing(bytes.0, bytes.1, groupSize, tPrime, points, scalars) == Ok(d)
  {
    DealingRoundTrip(d, nodes.1, threshold.1, points, scalars);
  }

  /** Reading shares with a row width other than the dealt one never gives the dealing back. */
  lemma WrongWidthMisreads(d: Dealing, nodes: (nat, nat), threshold: (nat, nat), groupSize: nat, tPrime: nat,
                           points: Codec<Point>, scalars: Codec<Scalar>)
    requires DealtShape(d, nodes, threshold) && nodes.0 > 0 && groupSize != nodes.1
    ensures var bytes := SerializeDealing(d, points, scalars);
      DeserializeDealing(bytes.0, bytes.1, groupSize, tPrime, points, scalars) != Ok(d)
  {
  }

  /**
   * As written, the signature driver misreads every dealing whose groups
   * and group sizes differ: with `nodes = (2, 3)` the 2 × 3 share table is
   * read back as 3 rows of 2.
   */
  lemma SignatureLayoutMisreads(d: Dealing, nodes: (nat, nat), threshold: (nat, nat),
                                points: Codec<Point>, scalars: Codec<Scalar>)
    requires DealtShape(d, nodes, threshold) && nodes.0 > 0 && nodes.0 != nodes.1
    ensures var bytes := SerializeDealing(d, points, scalars);
      var (groupSize, tPrime) := SignatureLayout(nodes, threshold);
      DeserializeDealing(bytes.0, bytes.1, groupSize, tPrime, points, scalars) != Ok(d)
  {
    WrongWidthMisreads(d, nodes, threshold, nodes.0, threshold.1, points, scalars);
  }

  /**
   * The DKG driver's fixed layout reads a dealing back when groups have 11
   * members and the member threshold is 5, and misreads it whenever groups
   * do not have 11 members.
   */
  lemma DkgLayoutRoundTrip(d: Dealing, nodes: (nat, nat), threshold: (nat, nat),
                           points: Codec<Point>, scalars: Codec<Scalar>)
    requires FixedWidth(points, POINT_BYTES) && FixedWidth(scalars, SCALAR_BYTES)
    requires DealtShape(d, nodes, threshold) && nodes.0 > 0 && threshold.1 > 0
    ensures var bytes := SerializeDealing(d, points, scalars);
      var (groupSize, tPrime) := DkgLayout(nodes, threshold);
      nodes.1 == 11 && threshold.1 == 5 ==>
        DeserializeDealing(bytes.0, bytes.1, groupSize, tPrime, points, scalars) == Ok(d)
    ensures var bytes := SerializeDealing(d, points, scalars);
      var (groupSize, tPrime) := DkgLayout(nodes, threshold);
      nodes.1 != 11 ==> DeserializeDealing(bytes.0, bytes.1, groupSize, tPrime, points, scalars) != Ok(d)
  {
    if nodes.1 == 11 && threshold.1 == 5 {
      DealtLayoutRoundTrip(d, nodes, threshold, points, scalars);
    }
    if nodes.1 != 11 {
      WrongWidthMisreads(d, nodes, threshold, 11, 5, points, scalars);
    }
  }
}

=== FILE: bls_bivariate.dfy ===
/**
 * `BivariatePolynomial` of the BLS12-381 crate
 * (`crates/dfinity/bls12_381/src/types/bivariate.rs`): the same coefficient
 * layout as `Bivariate.Polynomial`, evaluated by a left fold over the terms
 * in row-major order, and wiped by `zeroize`.
 */
module BlsBivariate {
  import opened Field
  import opened Tables
  import Bivariate

  /** Folds the terms of row `i` from column `j` on into `acc`. */
  function FoldRow(row: seq<Scalar>, i: nat, x: Scalar, y: Scalar, j: nat, acc: Scalar): Scalar
    decreases |row| - j
  {
    if j >= |row| then acc
    else FoldRow(row, i, x, y, j + 1, Add(acc, Bivariate.Term(row[j], i, j, x, y)))
  }

  /** Folds the rows from row `i` on into `acc`. */
  function FoldRows(c: seq<seq<Scalar>>, x: Scalar, y: Scalar, i: nat, acc: Scalar): Scalar
    decreases |c| - i
  {
    if i >= |c| then acc
    else FoldRows(c, x, y, i + 1, FoldRow(c[i], i, x, y, 0, acc))
  }

  /** `BivariatePolynomial::evaluate_at`: the accumulator starts at zero. */
  function EvaluateAt(c: seq<seq<Scalar>>, x: Scalar, y: Scalar): Scalar
  {
    FoldRows(c, x, y, 0, 0)
  }

  lemma {:induction false} FoldRowIsRowSum(row: seq<Scalar>, i: nat, x: Scalar, y: Scalar, j: nat, base: Scalar)
    requires j <= |row|
    ensures FoldRow(row, i, x, y, j, Add(base, Bivariate.RowSum(row[..j], i, x, y)))
         == Add(base, Bivariate.RowSum(row, i, x, y))
    decreases |row| - j
  {
    if j == |row| {
      assert row[..j] == row;
    } else {
      var t := Bivariate.Term(row[j], i, j, x, y);
      AddAssoc(base, Bivariate.RowSum(row[..j], i, x, y), t);
      assert row[..j + 1][..j] == row[..j];
      FoldRowIsRowSum(row, i, x, y, j + 1, base);
    }
  }

  lemma {:induction false} FoldRowsIsPolySum(c: seq<seq<Scalar>>, x: Scalar, y: Scalar, i: nat)
    requires i <= |c|
    ensures FoldRows(c, x, y, i, Bivariate.PolySum(c[..i], x, y)) == Bivariate.PolySum(c, x, y)
    decreases |c| - i
  {
    if i == |c| {
      assert c[..i] == c;
    } else {
      var base := Bivariate.PolySum(c[..i], x, y);
      AddZero(base);
      assert c[i][..0] == [];
      FoldRowIsRowSum(c[i], i, x, y, 0, base);
      assert c[..i + 1][..i] == c[..i];
      FoldRowsIsPolySum(c, x, y, i + 1);
    }
  }

  /**
   * The fold computes the double sum of `coefficients[i][j] * x^i * y^j`, so it
   * agrees with `types::bivariate::Polynomial::evaluate_at` on the same
   * coefficients; with no coefficients it is zero.
   */
  lemma EvaluateAtIsDoubleSum(c: seq<seq<Scalar>>, x: Scalar, y: Scalar)
    ensures EvaluateAt(c, x, y) == Bivariate.PolySum(c, x, y)
    ensures |c| == 0 ==> EvaluateAt(c, x, y) == 0
  {
    assert c[..0] == [];
    FoldRowsIsPolySum(c, x, y, 0);
  }

  /** `zeroize`: every coefficient is overwritten with zero, the shape is kept. */
  function Zeroize(c: seq<seq<Scalar>>): (z: seq<seq<Scalar>>)
    ensures |z| == |c|
    ensures forall i :: 0 <= i < |c| ==> |z[i]| == |c[i]|
    ensures forall i, j :: 0 <= i < |z| && 0 <= j < |z[i]| ==> z[i][j] == 0
  {
    seq(|c|, i requires 0 <= i < |c| => seq(|c[i]|, j requires 0 <= j < |c[i]| => 0 as Scalar))
  }

  /** A zeroized polynomial evaluates to zero at every point. */
  lemma ZeroizedEvaluatesToZero(c: seq<seq<Scalar>>, x: Scalar, y: Scalar)
    ensures EvaluateAt(Zeroize(c), x, y) == 0
  {
    EvaluateAtIsDoubleSum(Zeroize(c), x, y);
    Bivariate.PolySumOfZeros(Zeroize(c), x, y);
  }
}

=== FILE: dkg.dfy ===
/**
 * The dealer and combiner of the nested DKG (`crates/bivariate-dkg/src/dkg.rs`):
 * a dealer draws a `t x t'` polynomial, hands node `(i, j)` its value at
 * `(x_for_index(i), x_for_index(j))` and publishes the public coefficients;
 * a node adds up everything it received from all dealers.
 *
 * `x_for_index` is the parameter `xFor`; randomness is the parameter `draw`.
 */
module Dkg {
  import opened Wrappers
  import opened Field
  import opened G2
  import opened Tables
  import opened Bivariate

  /**
   * `generate_shares((n, m), (t, t'))`: `n` rows of `m` shares, share `(i, j)`
   * being the polynomial's value at `(x_for_index(i), x_for_index(j))`, and the
   * public coefficients of the `t x t'` polynomial.
   */
  method GenerateShares(n: nat, m: nat, t: nat, tPrime: nat, draw: (nat, nat) -> Scalar, xFor: nat -> Scalar)
    returns (d: Dealing)
    ensures Rectangular(d.shares, n, m)
    ensures forall i, j :: 0 <= i < n && 0 <= j < m ==>
      d.shares[i][j] == PolySum(Random(t, tPrime, draw), xFor(i), xFor(j))
    ensures d.coefficients == FromPolynomial(Random(t, tPrime, draw))
    ensures Rectangular(d.coefficients, t, tPrime)
  {
    var poly := Random(t, tPrime, draw);
    var shares: seq<seq<Scalar>> := [];
    var i := 0;
    while i < n
      invariant 0 <= i <= n
      invariant |shares| == i
      invariant SharesSoFar(shares, poly, m, xFor)
    {
      var row := EvaluateRow(poly, xFor(i), m, xFor);
      SharesStep(shares, row, poly, m, xFor);
      shares := shares + [row];
      i := i + 1;
    }
    d := Dealing(FromPolynomial(poly), shares);
  }

  /** Every row so far has `m` shares, each the polynomial at its pair of indices. */
  ghost predicate SharesSoFar(shares: seq<seq<Scalar>>, poly: Polynomial, m: nat, xFor: nat -> Scalar)
  {
    Rectangular(shares, |shares|, m)
    && forall a, b :: 0 <= a < |shares| && 0 <= b < m ==> shares[a][b] == PolySum(poly, xFor(a), xFor(b))
  }

  /** Appending the row for the next index keeps `SharesSoFar`. */
  lemma SharesStep(shares: seq<seq<Scalar>>, row: seq<Scalar>, poly: Polynomial, m: nat, xFor: nat -> Scalar)
    requires SharesSoFar(shares, poly, m, xFor)
    requires |row| == m && forall b :: 0 <= b < m ==> row[b] == PolySum(poly, xFor(|shares|), xFor(b))
    ensures SharesSoFar(shares + [row], poly, m, xFor)
  {
    var s := shares + [row];
    assert forall a :: 0 <= a < |shares| ==> s[a] == shares[a];
    assert s[|shares|] == row;
  }

  /** One row of `generate_shares`: the polynomial at `x` and each of the first `m` indices. */
  method EvaluateRow(poly: Polynomial, x: Scalar, m: nat, xFor: nat -> Scalar) returns (row: seq<Scalar>)
    ensures |row| == m
    ensures forall b :: 0 <= b < m ==> row[b] == PolySum(poly, x, xFor(b))
  {
    row := [];
    var j := 0;
    while j < m
      invariant 0 <= j <= m
      invariant |row| == j
      invariant forall b :: 0 <= b < j ==> row[b] == PolySum(poly, x, xFor(b))
    {
      var v := EvaluateAt(poly, x, xFor(j));
      row := row + [v];
      j := j + 1;
    }
  }

  /** The sum over all dealings of the share for `index`. */
  function ShareSum(ds: seq<Dealing>, index: (nat, nat)): Scalar
    requires forall k :: 0 <= k < |ds| ==> index.0 < |ds[k].shares| && index.1 < |ds[k].shares[index.0]|
  {
    if |ds| == 0 then 0 else Add(ds[0].shares[index.0][index.1], ShareSum(ds[1..], index))
  }

  /** The sum over all dealings of public coefficient `(i, j)`. */
  function CoefficientSum(ds: seq<Dealing>, i: nat, j: nat): Point
    requires forall k :: 0 <= k < |ds| ==> i < |ds[k].coefficients| && j < |ds[k].coefficients[i]|
  {
    if |ds| == 0 then Point(0) else PointAdd(ds[0].coefficients[i][j], CoefficientSum(ds[1..], i, j))
  }

  /** After adding the first table, the running sum still fits every later one. */
  lemma AddFitsAfterAdd(acc: PublicCoefficients, rest: seq<Dealing>)
    requires |rest| > 0
    requires forall k :: 0 <= k < |rest| ==> AddFits(acc, rest[k].coefficients)
    ensures forall k :: 1 <= k < |rest| ==>
      AddFits(AddTables(acc, rest[0].coefficients, PointAdd), rest[k].coefficients)
  {
    AddTablesEntries(acc, rest[0].coefficients, PointAdd);
  }

  /** The fold of `combine_dealings` over the dealings after the first. */
  function CombineFrom(rest: seq<Dealing>, acc: (PublicCoefficients, Scalar), index: (nat, nat))
    : (r: (PublicCoefficients, Scalar))
    requires forall k :: 0 <= k < |rest| ==> index.0 < |rest[k].shares| && index.1 < |rest[k].shares[index.0]| && AddFits(acc.0, rest[k].coefficients)
    ensures |rest| > 0 ==> |acc.0| > 0 ==> Rectangular(r.0, |acc.0|, |acc.0[0]|)
    ensures |rest| > 0 ==> |r.0| == |acc.0|
    ensures |rest| == 0 ==> r.0 == acc.0
  {
    if |rest| == 0 then acc
    else
      var sum := AddTables(acc.0, rest[0].coefficients, PointAdd);
      AddFitsAfterAdd(acc.0, rest);
      CombineFrom(rest[1..], (sum, Add(acc.1, rest[0].shares[index.0][index.1])), index)
  }

  /**
   * `combine_dealings(index, dealings)`: starts from the first dealing and
   * adds each later dealing's coefficients and `index` share. The source
   * indexes `dealings[0]` and each dealing's share table, and adds tables
   * that must be at least as large as the first; those are its preconditions.
   */
  function CombineDealings(index: (nat, nat), dealings: seq<Dealing>): (r: (PublicCoefficients, Scalar))
    requires |dealings| > 0
    requires forall k :: 0 <= k < |dealings| ==> index.0 < |dealings[k].shares| && index.1 < |dealings[k].shares[index.0]|
    requires forall k :: 1 <= k < |dealings| ==> AddFits(dealings[0].coefficients, dealings[k].coefficients)
  {
    CombineFrom(dealings[1..], (dealings[0].coefficients, dealings[0].shares[index.0][index.1]), index)
  }

  lemma {:induction false} CombineFromSums(rest: seq<Dealing>, acc: (PublicCoefficients, Scalar), index: (nat, nat))
    requires forall k :: 0 <= k < |rest| ==> index.0 < |rest[k].shares| && index.1 < |rest[k].shares[index.0]| && AddFits(acc.0, rest[k].coefficients)
    ensures CombineFrom(rest, acc, index).1 == Add(acc.1, ShareSum(rest, index))
    ensures forall i, j :: 0 <= i < |acc.0| && 0 <= j < |acc.0[0]| && j < |acc.0[i]| ==>
      CombineFrom(rest, acc, index).0[i][j] == PointAdd(acc.0[i][j], CoefficientSum(rest, i, j))
  {
    if |rest| == 0 {
      AddZero(acc.1);
      forall i, j | 0 <= i < |acc.0| && 0 <= j < |acc.0[i]| {
        AddZero(acc.0[i][j].dlog);
      }
    } else {
      var sum := AddTables(acc.0, rest[0].coefficients, PointAdd);
      var s := Add(acc.1, rest[0].shares[index.0][index.1]);
      AddTablesEntries(acc.0, rest[0].coefficients, PointAdd);
      AddFitsAfterAdd(acc.0, rest);
      CombineFromSums(rest[1..], (sum, s), index);
      AddAssoc(acc.1, rest[0].shares[index.0][index.1], ShareSum(rest[1..], index));
      forall i, j | 0 <= i < |acc.0| && 0 <= j < |acc.0[0]| && j < |acc.0[i]|
        ensures CombineFrom(rest, acc, index).0[i][j] == PointAdd(acc.0[i][j], CoefficientSum(rest, i, j))
      {
        PointAddAssoc(acc.0[i][j], rest[0].coefficients[i][j], CoefficientSum(rest[1..], i, j));
      }
    }
  }

  /**
   * The combined share is the sum of every dealing's share for the node, and
   * each combined coefficient is the sum of that coefficient over all dealings.
   */
  lemma CombineDealingsSums(index: (nat, nat), dealings: seq<Dealing>)
    requires |dealings| > 0
    requires forall k :: 0 <= k < |dealings| ==> index.0 < |dealings[k].shares| && index.1 < |dealings[k].shares[index.0]|
    requires forall k :: 1 <= k < |dealings| ==> AddFits(dealings[0].coefficients, dealings[k].coefficients)
    ensures CombineDealings(index, dealings).1 == ShareSum(dealings, index)
    ensures var c0 := dealings[0].coefficients;
      forall i, j :: 0 <= i < |c0| && 0 <= j < |c0[0]| && j < |c0[i]| ==>
        CombineDealings(index, dealings).0[i][j] == CoefficientSum(dealings, i, j)
  {
    var c0 := dealings[0].coefficients;
    var acc := (c0, dealings[0].shares[index.0][index.1]);
    CombineFromSums(dealings[1..], acc, index);
    assert dealings == [dealings[0]] + dealings[1..];
  }

  // ----- Honest dealers: the combined share matches the combined keys -----

  /** The zero polynomial of a shape. */
  function Zeros(rows: nat, cols: nat): (p: Polynomial)
    ensures Rectangular(p, rows, cols)
    ensures forall i, j :: 0 <= i < rows && 0 <= j < cols ==> p[i][j] == 0
  {
    seq(rows, i requires 0 <= i < rows => seq(cols, j requires 0 <= j < cols => 0 as Scalar))
  }

  /** The sum of the dealers' polynomials, all of shape `rows x cols`. */
  function SumPolys(polys: seq<Polynomial>, rows: nat, cols: nat): (p: Polynomial)
    requires forall k :: 0 <= k < |polys| ==> Rectangular(polys[k], rows, cols)
    ensures Rectangular(p, rows, cols)
  {
    if |polys| == 0 then Zeros(rows, cols)
    else
      var rest := SumPolys(polys[1..], rows, cols);
      assert Rectangular(polys[0], rows, cols);
      AddTablesEntries(polys[0], rest, Add);
      AddTables(polys[0], rest, Add)
  }

  /** Dealing `d` is what `generate_shares` makes from `poly`, as far as node `index` can tell. */
  predicate Honest(d: Dealing, poly: Polynomial, index: (nat, nat), xFor: nat -> Scalar)
  {
    (forall i :: 0 <= i < |poly| ==> |poly[0]| <= |poly[i]|) &&
    index.0 < |d.shares| && index.1 < |d.shares[index.0]| &&
    d.coefficients == FromPolynomial(poly) &&
    d.shares[index.0][index.1] == PolySum(poly, xFor(index.0), xFor(index.1))
  }

  lemma {:induction false} ShareSumOfHonest(ds: seq<Dealing>, polys: seq<Polynomial>, rows: nat, cols: nat,
                                            index: (nat, nat), xFor: nat -> Scalar)
    requires |ds| == |polys|
    requires forall k :: 0 <= k < |polys| ==> Rectangular(polys[k], rows, cols)
    requires forall k :: 0 <= k < |ds| ==> index.0 < |ds[k].shares| && index.1 < |ds[k].shares[index.0]|
    requires forall k :: 0 <= k < |ds| ==> Honest(ds[k], polys[k], index, xFor)
    ensures ShareSum(ds, index) == PolySum(SumPolys(polys, rows, cols), xFor(index.0), xFor(index.1))
  {
    var x, y := xFor(index.0), xFor(index.1);
    if |ds| == 0 {
      PolySumOfZeros(Zeros(rows, cols), x, y);
    } else {
      ShareSumOfHonest(ds[1..], polys[1..], rows, cols, index, xFor);
      PolySumAdd(polys[0], SumPolys(polys[1..], rows, cols), cols, x, y);
    }
  }

  lemma {:induction false} CoefficientSumOfHonest(ds: seq<Dealing>, polys: seq<Polynomial>, rows: nat, cols: nat,
                                                  index: (nat, nat), xFor: nat -> Scalar, i: nat, j: nat)
    requires |ds| == |polys| && i < rows && j < cols
    requires forall k :: 0 <= k < |polys| ==> Rectangular(polys[k], rows, cols)
    requires forall k :: 0 <= k < |ds| ==> Honest(ds[k], polys[k], index, xFor)
    ensures forall k :: 0 <= k < |ds| ==> i < |ds[k].coefficients| && j < |ds[k].coefficients[i]|
    ensures CoefficientSum(ds, i, j) == PublicKeyFromSecret(SumPolys(polys, rows, cols)[i][j])
  {
    if |ds| > 0 {
      CoefficientSumOfHonest(ds[1..], polys[1..], rows, cols, index, xFor, i, j);
      AddTablesEntries(polys[0], SumPolys(polys[1..], rows, cols), Add);
    }
  }

  /**
   * When every dealer is honest, the combined share of node `(i, j)` is the
   * summed polynomial's value at the node's point, the combined coefficients
   * are the public coefficients of the summed polynomial, and so the node's
   * individual public key, read off the combined coefficients, is the key of
   * its combined share.
   */
  lemma CombinedShareMatchesKey(dealings: seq<Dealing>, polys: seq<Polynomial>, t: nat, tPrime: nat,
                                index: (nat, nat), xFor: nat -> Scalar)
    requires |dealings| == |polys| > 0 && t > 0 && tPrime > 0
    requires forall k :: 0 <= k < |polys| ==> Rectangular(polys[k], t, tPrime)
    requires forall k :: 0 <= k < |dealings| ==>
      index.0 < |dealings[k].shares| && index.1 < |dealings[k].shares[index.0]|
    requires forall k :: 0 <= k < |dealings| ==> Honest(dealings[k], polys[k], index, xFor)
    ensures forall k :: 1 <= k < |dealings| ==> AddFits(dealings[0].coefficients, dealings[k].coefficients)
    ensures var r := CombineDealings(index, dealings);
      && r.1 == PolySum(SumPolys(polys, t, tPrime), xFor(index.0), xFor(index.1))
      && r.0 == FromPolynomial(SumPolys(polys, t, tPrime))
      && PointSum(r.0, xFor(index.0), xFor(index.1)) == PublicKeyFromSecret(r.1)
  {
    var sum := SumPolys(polys, t, tPrime);
    var r := CombineDealings(index, dealings);
    CombineDealingsSums(index, dealings);
    ShareSumOfHonest(dealings, polys, t, tPrime, index, xFor);
    var expected := FromPolynomial(sum);
    forall i, j | 0 <= i < t && 0 <= j < tPrime
      ensures r.0[i][j] == expected[i][j]
    {
      CoefficientSumOfHonest(dealings, polys, t, tPrime, index, xFor, i, j);
    }
    RectangularEqual(r.0, expected, t, tPrime);
    PointSumOfKeys(sum, tPrime, xFor(index.0), xFor(index.1));
  }

  // ----- combine_signatures -----

  /** The interpolation samples: the `k`-th signature paired with `x_for_index(k)`. */
  function Samples<G>(signatures: seq<G>, xFor: nat -> Scalar): (r: seq<(Scalar, G)>)
    ensures |r| == |signatures|
    ensures forall k :: 0 <= k < |r| ==> r[k] == (xFor(k), signatures[k])
  {
    seq(|signatures|, k requires 0 <= k < |signatures| => (xFor(k), signatures[k]))
  }

  /**
   * `combine_signatures(signatures, t)`: fewer than `t` signatures is the
   * error `"Invalid Threshold"`; otherwise the signatures, paired with their
   * positions' points, go to the Lagrange interpolation `interpolate`
   * (`PublicCoefficients::interpolate_g1`, not part of this model).
   */
  function CombineSignatures<G>(signatures: seq<G>, t: nat, xFor: nat -> Scalar, interpolate: seq<(Scalar, G)> -> G)
    : (r: Result<G, string>)
    ensures r.Err? <==> |signatures| < t
    ensures r.Err? ==> r.error == "Invalid Threshold"
    ensures r.Ok? ==> r.value == interpolate(Samples(signatures, xFor))
  {
    if |signatures| < t then Err("Invalid Threshold")
    else Ok(interpolate(Samples(signatures, xFor)))
  }

  /**
   * The point of a sample is fixed by its position alone: with an injective
   * `x_for_index` no two samples share a point, so the interpolation's
   * "Duplicate indices" failure cannot occur, whoever sent which signature.
   */
  lemma SamplesHaveDistinctPoints<G>(signatures: seq<G>, xFor: nat -> Scalar)
    requires forall a: nat, b: nat :: a != b ==> xFor(a) != xFor(b)
    ensures forall a, b :: 0 <= a < b < |signatures| ==>
      Samples(signatures, xFor)[a].0 != Samples(signatures, xFor)[b].0
  {
  }
}

=== FILE: el_gamal.dfy ===
/**
 * The integer tail of `dec_chunks` (`crates/dfinity/fs_ni_dkg/src/el_gamal.rs`).
 *
 * A 32-byte field element travels as 16 chunks of two bytes. After the
 * pairing step and the baby-step giant-step search have produced one
 * discrete logarithm per chunk (or nothing, for a chunk whose logarithm
 * was not found), the logarithms are recombined by Horner's rule in base
 * `CHUNK_SIZE` modulo the group order, the result is written as 48
 * big-endian bytes, and its low 32 bytes are split again into 16 two-byte
 * values. The pairing and the search belong to foreign code and are the
 * input `found` here.
 */
module ChunkRecombination {
  import opened Wrappers
  import opened Field
  import Tables

  function PowNat(b: nat, e: nat): (p: nat)
    ensures b > 0 ==> p > 0
  {
    if e == 0 then 1 else b * PowNat(b, e - 1)
  }

  /** The ciphertext is an element of Fr, 256 bits. */
  const MESSAGE_BYTES: nat := 32

  const CHUNK_BYTES: nat := 2

  /** `1 << (CHUNK_BYTES << 3)`: the number of distinct chunk values. */
  const CHUNK_SIZE: nat := PowNat(2, CHUNK_BYTES * 8)

  const CHUNK_MIN: int := 0

  const CHUNK_MAX: int := CHUNK_MIN + CHUNK_SIZE - 1

  /** The number of chunks needed to hold a message, rounded up. */
  const NUM_CHUNKS: nat := (MESSAGE_BYTES + CHUNK_BYTES - 1) / CHUNK_BYTES

  /** The size of `miracl_core` `BIG::tobytes` output for BLS12-381. */
  const BIG_BYTES: nat := 48

  /** The values the constants work out to. */
  lemma ChunkConstants()
    ensures CHUNK_SIZE == 65536 && CHUNK_MAX == 65535
    ensures NUM_CHUNKS == 16 && NUM_CHUNKS * CHUNK_BYTES == MESSAGE_BYTES
  {
    assert PowNat(2, 16) == 65536 by {
      assert PowNat(2, 8) == 256;
    }
  }

  /** A discrete logarithm as the search range `0 .. CHUNK_SIZE` yields it. */
  type Chunk = x: int | 0 <= x < 0x1_0000

  /**
   * The `dlogs` list: the logarithms that were found, in chunk order; a
   * chunk whose logarithm was not found leaves no entry (it is not zero-filled).
   */
  function FoundLogs(found: seq<Option<Chunk>>): (dlogs: seq<Chunk>)
    ensures |dlogs| <= |found|
    ensures forall d :: d in dlogs ==> Some(d) in found
    ensures (forall k :: 0 <= k < |found| ==> found[k].Some?) ==>
      |dlogs| == |found| && forall k :: 0 <= k < |found| ==> found[k] == Some(dlogs[k])
  {
    if |found| == 0 then []
    else
      var rest := FoundLogs(found[1..]);
      match found[0]
      case None => rest
      case Some(d) => [d] + rest
  }

  /** The positions from `from` on whose logarithm was found, in increasing order. */
  function FoundIndices(found: seq<Option<Chunk>>, from: nat): seq<nat>
    requires from <= |found|
    decreases |found| - from
  {
    if from == |found| then []
    else if found[from].Some? then [from] + FoundIndices(found, from + 1)
    else FoundIndices(found, from + 1)
  }

  /**
   * A chunk whose logarithm was not found is skipped: the `m`-th logarithm
   * kept is the one at the `m`-th found position, the positions increase, and
   * every found position is among them. So nothing is zero-filled, nothing
   * found is lost, and the order is the chunk order.
   */
  lemma {:induction false} FoundLogsSkipsMissing(found: seq<Option<Chunk>>, from: nat)
    requires from <= |found|
    ensures |FoundIndices(found, from)| == |FoundLogs(found[from..])|
    ensures forall m :: 0 <= m < |FoundIndices(found, from)| ==>
      from <= FoundIndices(found, from)[m] < |found| &&
      found[FoundIndices(found, from)[m]] == Some(FoundLogs(found[from..])[m])
    ensures forall a, b :: 0 <= a < b < |FoundIndices(found, from)| ==>
      FoundIndices(found, from)[a] < FoundIndices(found, from)[b]
    ensures forall k :: from <= k < |found| && found[k].Some? ==> k in FoundIndices(found, from)
    decreases |found| - from
  {
    if from < |found| {
      var ks, dlogs := FoundIndices(found, from), FoundLogs(found[from..]);
      var rk, rd := FoundIndices(found, from + 1), FoundLogs(found[from + 1..]);
      FoundLogsSkipsMissing(found, from + 1);
      assert found[from..][1..] == found[from + 1..];
      assert found[from..][0] == found[from];
      match found[from]
      case None =>
        assert ks == rk && dlogs == rd;
      case Some(d) =>
        assert ks == [from] + rk && dlogs == [d] + rd;
        forall m | 0 < m < |ks|
          ensures ks[m] == rk[m - 1] && dlogs[m] == rd[m - 1]
        {
        }
    }
  }

  /**
   * Over the whole ciphertext: the logarithms kept are those of the found
   * chunks, one each, in chunk order; a position is listed exactly when its
   * logarithm was found.
   */
  lemma FoundLogsInChunkOrder(found: seq<Option<Chunk>>)
    ensures |FoundIndices(found, 0)| == |FoundLogs(found)|
    ensures forall m :: 0 <= m < |FoundIndices(found, 0)| ==>
      FoundIndices(found, 0)[m] < |found| && found[FoundIndices(found, 0)[m]] == Some(FoundLogs(found)[m])
    ensures forall a, b :: 0 <= a < b < |FoundIndices(found, 0)| ==>
      FoundIndices(found, 0)[a] < FoundIndices(found, 0)[b]
    ensures forall k :: 0 <= k < |found| ==> (k in FoundIndices(found, 0) <==> found[k].Some?)
  {
    FoundLogsSkipsMissing(found, 0);
    assert found[0..] == found;
  }

  /**
   * The loop `acc = modadd(src, modmul(acc, b, r), r)` over the logarithms,
   * most significant first, starting from zero.
   */
  function Horner(dlogs: seq<Chunk>): Scalar
  {
    if |dlogs| == 0 then 0
    else Add(dlogs[|dlogs| - 1], Mul(Horner(dlogs[..|dlogs| - 1]), 0x1_0000))
  }

  /** The plain (unreduced) number whose base-65536 digits are `dlogs`, most significant first. */
  function DigitsValue(dlogs: seq<Chunk>): nat
  {
    if |dlogs| == 0 then 0 else DigitsValue(dlogs[..|dlogs| - 1]) * 0x1_0000 + dlogs[|dlogs| - 1]
  }

  /** The accumulator holds the base-65536 value of the logarithms reduced modulo `R`. */
  lemma {:induction false} HornerIsValueModR(dlogs: seq<Chunk>)
    ensures Horner(dlogs) == DigitsValue(dlogs) % R
  {
    if |dlogs| > 0 {
      var pre, d := dlogs[..|dlogs| - 1], dlogs[|dlogs| - 1];
      var v := DigitsValue(pre);
      var w := v * 0x1_0000;
      HornerIsValueModR(pre);
      ModMulLeft(v, 0x1_0000);
      assert Mul(Horner(pre), 0x1_0000) == w % R;
      ModAddLeft(w, d);
      assert Horner(dlogs) == (w % R + d) % R;
      assert DigitsValue(dlogs) == w + d;
    }
  }

  /** Byte `e` of `v`, counting from the least significant. */
  function ByteOf(v: nat, e: nat): byte
  {
    (v / PowNat(256, e)) % 256
  }

  /** `BIG::tobytes`: the value as 48 big-endian bytes. */
  function ToBytes(v: Scalar): (b: seq<byte>)
    ensures |b| == BIG_BYTES
  {
    seq(BIG_BYTES, k requires 0 <= k < BIG_BYTES => ByteOf(v, BIG_BYTES - 1 - k))
  }

  /** `chunks_exact(CHUNK_BYTES)` over `fr_bytes`, each pair read as `256 * hi + lo`. */
  function SplitPairs(fr: seq<byte>): (r: seq<int>)
    requires |fr| == MESSAGE_BYTES
    ensures |r| == NUM_CHUNKS
    ensures forall k :: 0 <= k < |r| ==> CHUNK_MIN <= r[k] <= CHUNK_MAX
    ensures NUM_CHUNKS == 16 && forall k :: 0 <= k < 16 ==> r[k] == 256 * (fr[2 * k] as int) + fr[2 * k + 1]
  {
    ChunkConstants();
    seq(16, k requires 0 <= k < 16 => 256 * (fr[2 * k] as int) + fr[2 * k + 1])
  }

  /**
   * The end of `dec_chunks`: recombine the logarithms that were found,
   * keep bytes 16..48 of the 48-byte encoding, split them into 16 values.
   * Whatever the number of logarithms, the result has 16 entries, each a
   * valid chunk.
   */
  function RecombineChunks(found: seq<Option<Chunk>>): (r: seq<int>)
    ensures |r| == NUM_CHUNKS
    ensures forall k :: 0 <= k < |r| ==> CHUNK_MIN <= r[k] <= CHUNK_MAX
  {
    SplitValue(Horner(FoundLogs(found)))
  }

  /** `fr_bytes` (the low 32 of the 48 bytes) split into two-byte values. */
  function SplitValue(acc: Scalar): (r: seq<int>)
    ensures |r| == NUM_CHUNKS
    ensures forall k :: 0 <= k < |r| ==> CHUNK_MIN <= r[k] <= CHUNK_MAX
  {
    SplitPairs(ToBytes(acc)[16..BIG_BYTES])
  }

  // ----- Splitting inverts combining -----

  lemma DivDiv(v: nat, a: nat, b: nat)
    requires a > 0 && b > 0
    ensures v / a / b == v / (a * b)
  {
    var q1, r1 := v / a, v % a;
    var q2, r2 := q1 / b, q1 % b;
    assert v == q1 * a + r1;
    assert q1 == q2 * b + r2;
    assert q1 * a == q2 * (a * b) + r2 * a by {
      MulDistr(q2 * b, r2, a);
      assert q2 * b * a == q2 * (a * b);
    }
    assert r2 * a <= (b - 1) * a by {
      Tables.MulLe(r2, b - 1, a);
    }
    assert (b - 1) * a == a * b - a;
    Tables.DivUnique(v, a * b, q2, r2 * a + r1);
  }

  lemma MulDistr(x: int, y: int, z: int)
    ensures (x + y) * z == x * z + y * z
  {
  }

  /** Pairs of bytes are base-65536 digits: `256^(2e) = 65536^e`. */
  lemma {:induction false} PowNatSquare(e: nat)
    ensures PowNat(256, 2 * e) == PowNat(0x1_0000, e)
  {
    if e > 0 {
      PowNatSquare(e - 1);
      assert PowNat(256, 2 * e) == 256 * (256 * PowNat(256, 2 * (e - 1)));
    }
  }

  lemma {:induction false} PowNatPositive(b: nat, e: nat)
    requires b > 0
    ensures PowNat(b, e) > 0
  {
    if e > 0 {
      PowNatPositive(b, e - 1);
    }
  }

  /** The low 16 bits of `w` are its two low bytes. */
  lemma ByteSplit(w: nat)
    ensures w % 0x1_0000 == 256 * ((w / 256) % 256) + w % 256
  {
    var hi := w / 256;
    assert w == 256 * hi + w % 256;
    assert hi == 256 * (hi / 256) + hi % 256;
    assert w == 0x1_0000 * (hi / 256) + (256 * (hi % 256) + w % 256);
    Tables.DivUnique(w, 0x1_0000, hi / 256, 256 * (hi % 256) + w % 256);
  }

  /** Two consecutive big-endian bytes of `v` form one base-65536 digit. */
  lemma PairIsDigit(v: nat, m: nat)
    ensures 256 * ByteOf(v, 2 * m + 1) + ByteOf(v, 2 * m) == (v / PowNat(0x1_0000, m)) % 0x1_0000
  {
    var p := PowNat(256, 2 * m);
    PowNatPositive(256, 2 * m);
    assert PowNat(256, 2 * m + 1) == 256 * p;
    PairOfBytes(v, p);
    PowNatSquare(m);
  }

  /** Bytes `e + 1` and `e` of `v` (with `p = 256^e`) form its base-65536 digit at `p`. */
  lemma PairOfBytes(v: nat, p: nat)
    requires p > 0
    ensures 256 * ((v / (256 * p)) % 256) + (v / p) % 256 == (v / p) % 0x1_0000
  {
    var w := v / p;
    DivDiv(v, p, 256);
    assert p * 256 == 256 * p;
    ByteSplit(w);
  }

  /** Entry `k` of the split is digit `15 - k` of the recombined value. */
  lemma ChunkOfValue(v: Scalar, k: nat)
    requires k < 16
    ensures |SplitValue(v)| == 16
    ensures SplitValue(v)[k] == (v / PowNat(0x1_0000, 15 - k)) % 0x1_0000
  {
    SplitValueAt(v, k);
    PairIsDigit(v, 15 - k);
  }

  /** Entry `k` of the split is read from bytes `31 - 2k` and `30 - 2k` of the value. */
  lemma SplitValueAt(v: Scalar, k: nat)
    requires k < 16
    ensures |SplitValue(v)| == 16
    ensures SplitValue(v)[k] == 256 * (ByteOf(v, 2 * (15 - k) + 1) as int) + ByteOf(v, 2 * (15 - k))
  {
    var fr := ToBytes(v)[16..BIG_BYTES];
    assert SplitPairs(fr)[k] == 256 * (fr[2 * k] as int) + fr[2 * k + 1];
    ToBytesAt(v, 16 + 2 * k);
    ToBytesAt(v, 17 + 2 * k);
  }

  lemma ToBytesAt(v: Scalar, k: nat)
    requires k < BIG_BYTES
    ensures ToBytes(v)[k] == ByteOf(v, BIG_BYTES - 1 - k)
  {
  }

  /** Digit `m` (counting from the least significant) of the value is the matching entry. */
  lemma {:induction false} DigitOfValue(ds: seq<Chunk>, m: nat)
    requires m < |ds|
    ensures (DigitsValue(ds) / PowNat(0x1_0000, m)) % 0x1_0000 == ds[|ds| - 1 - m]
  {
    var n := |ds| - 1;
    var pre := ds[..n];
    Tables.DivUnique(DigitsValue(ds), 0x1_0000, DigitsValue(pre), ds[n]);
    if m > 0 {
      PowNatPositive(0x1_0000, m - 1);
      DivDiv(DigitsValue(ds), 0x1_0000, PowNat(0x1_0000, m - 1));
      DigitOfValue(pre, m - 1);
    }
  }

  /**
   * Splitting inverts combining: sixteen chunks whose base-65536 value lies
   * below the group order, all found by the search, come back unchanged.
   */
  lemma SplitInvertsCombine(ds: seq<Chunk>)
    requires |ds| == NUM_CHUNKS && DigitsValue(ds) < R
    ensures RecombineChunks(seq(|ds|, k requires 0 <= k < |ds| => Some(ds[k]))) == ds
  {
    var found := seq(|ds|, k requires 0 <= k < |ds| => Some(ds[k]));
    assert FoundLogs(found) == ds;
    HornerIsValueModR(ds);
    Tables.DivUnique(DigitsValue(ds), R, 0, DigitsValue(ds));
    SplitOfDigits(ds);
  }

  /** Splitting the plain value of 16 digits gives the digits back. */
  lemma SplitOfDigits(ds: seq<Chunk>)
    requires |ds| == NUM_CHUNKS && DigitsValue(ds) < R
    ensures SplitValue(DigitsValue(ds)) == ds
  {
    ChunkConstants();
    var r := SplitValue(DigitsValue(ds));
    forall k | 0 <= k < 16
      ensures r[k] == ds[k]
    {
      DigitComesBack(ds, k);
    }
  }

  /** Entry `k` of the split of a 16-digit value is digit `k`. */
  lemma DigitComesBack(ds: seq<Chunk>, k: nat)
    requires |ds| == 16 && DigitsValue(ds) < R && k < 16
    ensures |SplitValue(DigitsValue(ds))| == 16 && SplitValue(DigitsValue(ds))[k] == ds[k]
  {
    var v: Scalar := DigitsValue(ds);
    ChunkOfValue(v, k);
    DigitOfValue(ds, 15 - k);
  }
}

=== FILE: field.dfy ===
/**
 * The scalar field of BLS12-381: integers modulo the prime group order `R`.
 * The arithmetic of `bls12_381::Scalar` (and of `miracl_core` `BIG` modulo the
 * curve order) is modelled by `Add` and `Mul` reduced modulo `R`.
 */
module Field {

  /** The order of the BLS12-381 prime-order groups (`rom::CURVE_ORDER`). */
  const R: int := 0x73eda753299d7d483339d80809a1d80553bda402fffe5bfeffffffff00000001

  /** An element of the scalar field, in canonical form. */
  type Scalar = x: int | 0 <= x < R

  function Add(a: Scalar, b: Scalar): Scalar
  {
    (a + b) % R
  }

  function Mul(a: Scalar, b: Scalar): Scalar
  {
    (a * b) % R
  }

  /**
   * `x^i`, computed as the source does: start from one and multiply by `x`
   * `i` times.
   */
  function Pow(x: Scalar, i: nat): Scalar
  {
    if i == 0 then 1 else Mul(Pow(x, i - 1), x)
  }

  lemma ModShift(k: int, x: int)
    ensures (k * R + x) % R == x % R
  {
  }

  /** Reducing a left operand before adding does not change the sum mod `R`. */
  lemma ModAddLeft(a: int, b: int)
    ensures (a % R + b) % R == (a + b) % R
  {
    ModShift(-(a / R), a + b);
  }

  /** Reducing a left factor before multiplying does not change the product mod `R`. */
  lemma ModMulLeft(a: int, b: int)
    ensures (a % R * b) % R == (a * b) % R
  {
    var q := a / R;
    assert a == q * R + a % R;
    assert a * b == (q * b) * R + a % R * b by {
      assert a * b == (q * R + a % R) * b;
    }
    ModShift(q * b, a % R * b);
  }

  lemma AddAssoc(a: Scalar, b: Scalar, c: Scalar)
    ensures Add(Add(a, b), c) == Add(a, Add(b, c))
  {
    ModAddLeft(a + b, c);
    ModAddLeft(b + c, a);
  }

  lemma AddZero(a: Scalar)
    ensures Add(a, 0) == a && Add(0, a) == a
  {
  }

  lemma MulComm(a: Scalar, b: Scalar)
    ensures Mul(a, b) == Mul(b, a)
  {
  }

  lemma MulOne(a: Scalar)
    ensures Mul(a, 1) == a && Mul(1, a) == a
  {
  }

  lemma MulZero(a: Scalar)
    ensures Mul(a, 0) == 0 && Mul(0, a) == 0
  {
  }

  lemma MulAssoc(a: Scalar, b: Scalar, c: Scalar)
    ensures Mul(Mul(a, b), c) == Mul(a, Mul(b, c))
  {
    ModMulLeft(a * b, c);
    ModMulLeft(b * c, a);
    assert (a * b) * c == (b * c) * a;
  }

  /** Multiplication distributes over addition in the field. */
  lemma MulAddDistr(m: Scalar, a: Scalar, b: Scalar)
    ensures Mul(Add(a, b), m) == Add(Mul(a, m), Mul(b, m))
  {
    var x, y := a * m, b * m;
    assert (a + b) * m == x + y;
    ModMulLeft(a + b, m);
    ModAddLeft(x, y % R);
    ModAddLeft(y, x);
    assert x + y % R == y % R + x;
  }

  lemma MulAddDistrLeft(m: Scalar, a: Scalar, b: Scalar)
    ensures Mul(m, Add(a, b)) == Add(Mul(m, a), Mul(m, b))
  {
    MulAddDistr(m, a, b);
  }

  /** Regrouping of a sum of four field elements. */
  lemma AddSwapMiddle(a: Scalar, b: Scalar, c: Scalar, d: Scalar)
    ensures Add(Add(a, b), Add(c, d)) == Add(Add(a, c), Add(b, d))
  {
    AddAssoc(a, b, Add(c, d));
    AddAssoc(b, c, d);
    AddAssoc(c, b, d);
    AddAssoc(a, c, Add(b, d));
  }
}

=== FILE: group.dfy ===
/**
 * The prime-order group G2 of BLS12-381, in which public keys and public
 * coefficients live. G2 is cyclic of order `R`, so each point is written as
 * its discrete logarithm with respect to the fixed generator; the model only
 * ever combines points through the group operations below, never by reading
 * the logarithm back out.
 */
module G2 {
  import opened Field

  datatype Point = Point(dlog: Scalar)

  /** The group operation (`G2Projective` addition). */
  function PointAdd(p: Point, q: Point): Point
  {
    Point(Add(p.dlog, q.dlog))
  }

  /** Multiplication of a point by a scalar (`G2Projective * Scalar`). */
  function ScalarMul(p: Point, k: Scalar): Point
  {
    Point(Mul(p.dlog, k))
  }

  /** `public_key_from_secret_key`: the generator multiplied by the secret. */
  function PublicKeyFromSecret(s: Scalar): Point
  {
    Point(s)
  }

  /** The key map is a homomorphism from the field's addition to the group operation. */
  lemma PublicKeyAdditive(a: Scalar, b: Scalar)
    ensures PublicKeyFromSecret(Add(a, b)) == PointAdd(PublicKeyFromSecret(a), PublicKeyFromSecret(b))
  {
  }

  /** The key of a product is the key of one factor multiplied by the other. */
  lemma PublicKeyScales(s: Scalar, k: Scalar)
    ensures PublicKeyFromSecret(Mul(k, s)) == ScalarMul(PublicKeyFromSecret(s), k)
  {
    MulComm(k, s);
  }

  /** The key map never sends two secrets to the same point. */
  lemma PublicKeyInjective(a: Scalar, b: Scalar)
    ensures PublicKeyFromSecret(a) == PublicKeyFromSecret(b) <==> a == b
  {
  }

  lemma PointAddAssoc(p: Point, q: Point, s: Point)
    ensures PointAdd(PointAdd(p, q), s) == PointAdd(p, PointAdd(q, s))
  {
    AddAssoc(p.dlog, q.dlog, s.dlog);
  }
}

=== FILE: serialization.dfy ===
/**
 * Byte layout of public coefficients and dealings
 * (`PublicCoefficients::serialize`/`deserialize`, `Dealing::serialize`/`deserialize`).
 *
 * Tables are flattened row-major into fixed-width records: 192 bytes per G2
 * point (uncompressed affine form) and 32 bytes per scalar. Reading cuts the
 * bytes into records with `chunks_exact`, decodes each record, and cuts the
 * decoded values into rows with `chunks_exact` again. The point and scalar
 * encodings themselves belong to the curve library; they appear here as a
 * `Codec` whose only known property is that decoding inverts encoding.
 */
module Serialization {
  import opened Wrappers
  import opened Field
  import opened G2
  import opened Tables
  import opened Bivariate

  /** Size of an uncompressed G2 point (`G2Affine::to_uncompressed`). */
  const POINT_BYTES: nat := 192

  /** Size of an encoded scalar (`Scalar::to_bytes`). */
  const SCALAR_BYTES: nat := 32

  /** An encoding of values of type `T` as bytes, with its partial inverse. */
  datatype Codec<!T> = Codec(encode: T -> seq<byte>, decode: seq<byte> -> Option<T>)

  /** Every value encodes to exactly `w` bytes, and decoding gives the value back. */
  ghost predicate FixedWidth<T(!new)>(c: Codec<T>, w: nat)
  {
    forall v :: |c.encode(v)| == w && c.decode(c.encode(v)) == Some(v)
  }

  /**
   * The ways reading can fail. Each is a panic in the source: an `unwrap` of a
   * record that does not decode, or `chunks_exact(0)`.
   */
  datatype DecodeError = InvalidPoint | InvalidScalar | ZeroRowWidth

  /** Two nested `flat_map`s: each row's records joined, then the rows joined. */
  function EncodeTable<T>(t: seq<seq<T>>, c: Codec<T>): seq<byte>
  {
    Concat(MapSeq((row: seq<T>) => Concat(MapSeq(c.encode, row)), t))
  }

  /** Byte `k * w + m` of the joined records is byte `m` of record `k`. */
  lemma {:induction false} ConcatWindow<T>(pieces: seq<seq<T>>, w: nat, k: nat)
    requires Rectangular(pieces, |pieces|, w) && k < |pieces|
    ensures k * w + w <= |Concat(pieces)|
    ensures Concat(pieces)[k * w .. k * w + w] == pieces[k]
  {
    var rest := Concat(pieces[1..]);
    assert Concat(pieces) == pieces[0] + rest;
    if k > 0 {
      ConcatWindow(pieces[1..], w, k - 1);
      var o := (k - 1) * w;
      MulPred(k, w);
      assert Concat(pieces)[k * w .. k * w + w] == rest[o .. o + w];
    } else {
      assert k * w == 0;
    }
  }

  lemma MulPred(k: nat, w: nat)
    requires k > 0
    ensures k * w == (k - 1) * w + w
  {
  }

  /**
   * `PublicCoefficients::serialize` (and the first half of `Dealing::serialize`):
   * 192 bytes per coefficient, the `k`-th coefficient in row-major order at
   * offset `192 * k`.
   */
  function SerializeCoefficients(pc: PublicCoefficients, points: Codec<Point>): (r: seq<byte>)
    ensures FixedWidth(points, POINT_BYTES) ==>
      |r| == POINT_BYTES * |Concat(pc)| &&
      forall k :: 0 <= k < |Concat(pc)| ==>
        r[POINT_BYTES * k .. POINT_BYTES * k + POINT_BYTES] == points.encode(Concat(pc)[k])
  {
    ConcatNested(points.encode, pc);
    EncodedWindowsIfFixed(Concat(pc), points, POINT_BYTES);
    EncodeTable(pc, points)
  }

  /** Second half of `Dealing::serialize`: 32 bytes per share, row-major. */
  function SerializeShares(shares: seq<seq<Scalar>>, scalars: Codec<Scalar>): (r: seq<byte>)
    ensures FixedWidth(scalars, SCALAR_BYTES) ==>
      |r| == SCALAR_BYTES * |Concat(shares)| &&
      forall k :: 0 <= k < |Concat(shares)| ==>
        r[SCALAR_BYTES * k .. SCALAR_BYTES * k + SCALAR_BYTES] == scalars.encode(Concat(shares)[k])
  {
    ConcatNested(scalars.encode, shares);
    EncodedWindowsIfFixed(Concat(shares), scalars, SCALAR_BYTES);
    EncodeTable(shares, scalars)
  }

  /** With a fixed-width codec, the `k`-th value's record sits at offset `w * k`. */
  lemma EncodedWindowsIfFixed<T(!new)>(xs: seq<T>, c: Codec<T>, w: nat)
    ensures FixedWidth(c, w) ==>
      |Concat(MapSeq(c.encode, xs))| == w * |xs| &&
      forall k :: 0 <= k < |xs| ==>
        w * k + w <= |Concat(MapSeq(c.encode, xs))| &&
        Concat(MapSeq(c.encode, xs))[w * k .. w * k + w] == c.encode(xs[k])
  {
    if FixedWidth(c, w) {
      var pieces := MapSeq(c.encode, xs);
      ConcatLength(pieces, w);
      forall k | 0 <= k < |xs|
        ensures w * k + w <= |Concat(pieces)| && Concat(pieces)[w * k .. w * k + w] == c.encode(xs[k])
      {
        ConcatWindow(pieces, w, k);
        assert w * k == k * w;
      }
    }
  }

  /** `Dealing::serialize`: the coefficient bytes and the share bytes. */
  function SerializeDealing(d: Dealing, points: Codec<Point>, scalars: Codec<Scalar>): (r: (seq<byte>, seq<byte>))
    ensures FixedWidth(points, POINT_BYTES) ==> |r.0| == POINT_BYTES * |Concat(d.coefficients)|
    ensures FixedWidth(scalars, SCALAR_BYTES) ==> |r.1| == SCALAR_BYTES * |Concat(d.shares)|
  {
    (SerializeCoefficients(d.coefficients, points), SerializeShares(d.shares, scalars))
  }

  /** Decodes every record; the first record that does not decode stops the reading. */
  function DecodeAll<T>(records: seq<seq<byte>>, c: Codec<T>): (r: Option<seq<T>>)
    ensures r.Some? <==> forall k :: 0 <= k < |records| ==> c.decode(records[k]).Some?
    ensures r.Some? ==> (|r.value| == |records| &&
      forall k :: 0 <= k < |records| ==> c.decode(records[k]) == Some(r.value[k]))
  {
    if |records| == 0 then Some([])
    else match c.decode(records[0])
      case None => None
      case Some(v) =>
        match DecodeAll(records[1..], c)
        case None => None
        case Some(rest) => Some([v] + rest)
  }

  /**
   * The shared reading step: records of `recordBytes` bytes, decoded, then
   * cut into rows of `rowWidth` values. A trailing partial record and a
   * trailing partial row are dropped without an error.
   */
  function DecodeTable<T>(bytes: seq<byte>, c: Codec<T>, recordBytes: nat, rowWidth: nat, invalid: DecodeError)
    : (r: Result<seq<seq<T>>, DecodeError>)
    requires recordBytes > 0
    ensures var records := ChunksExact(bytes, recordBytes);
      r.Err? <==> (exists k :: 0 <= k < |records| && c.decode(records[k]).None?) || rowWidth == 0
    ensures r.Err? && rowWidth > 0 ==> r.error == invalid
    ensures r.Ok? ==> (|r.value| == (|bytes| / recordBytes) / rowWidth &&
      forall i :: 0 <= i < |r.value| ==> |r.value[i]| == rowWidth)
    ensures r.Ok? ==> forall i, j :: 0 <= i < |r.value| && 0 <= j < rowWidth ==>
      EntryIsRecord(bytes, c, recordBytes, rowWidth, r.value, i, j)
  {
    var records := ChunksExact(bytes, recordBytes);
    match DecodeAll(records, c)
    case None =>
      assert records == ChunksExact(bytes, recordBytes);
      assert exists j :: 0 <= j < |ChunksExact(bytes, recordBytes)| && c.decode(ChunksExact(bytes, recordBytes)[j]).None?;
      Err(invalid)
    case Some(values) =>
      if rowWidth == 0 then Err(ZeroRowWidth)
      else
        DecodedEntries(bytes, c, recordBytes, rowWidth, values);
        Ok(ChunksExact(values, rowWidth))
  }

  /**
   * Entry `(i, j)` of `table` is the decoding of record `i·rowWidth + j`,
   * the bytes `[(i·rowWidth + j)·recordBytes, (i·rowWidth + j + 1)·recordBytes)`.
   */
  ghost predicate EntryIsRecord<T>(bytes: seq<byte>, c: Codec<T>, recordBytes: nat, rowWidth: nat,
                             table: seq<seq<T>>, i: nat, j: nat)
    requires recordBytes > 0
  {
    && i < |table| && j < |table[i]|
    && i * rowWidth + j < |bytes| / recordBytes
    && c.decode(Window(bytes, recordBytes, i * rowWidth + j)) == Some(table[i][j])
  }

  /** Every entry of the rows cut from the decoded records is the decoding of its own record. */
  lemma DecodedEntries<T>(bytes: seq<byte>, c: Codec<T>, recordBytes: nat, rowWidth: nat, values: seq<T>)
    requires recordBytes > 0 && rowWidth > 0
    requires |values| == |bytes| / recordBytes
    requires forall k :: 0 <= k < |values| ==> c.decode(ChunksExact(bytes, recordBytes)[k]) == Some(values[k])
    ensures forall i, j :: 0 <= i < |values| / rowWidth && 0 <= j < rowWidth ==>
      EntryIsRecord(bytes, c, recordBytes, rowWidth, ChunksExact(values, rowWidth), i, j)
  {
    forall i, j | 0 <= i < |values| / rowWidth && 0 <= j < rowWidth
      ensures EntryIsRecord(bytes, c, recordBytes, rowWidth, ChunksExact(values, rowWidth), i, j)
    {
      DecodedEntry(bytes, c, recordBytes, rowWidth, values, i, j);
    }
  }

  lemma DecodedEntry<T>(bytes: seq<byte>, c: Codec<T>, recordBytes: nat, rowWidth: nat, values: seq<T>, i: nat, j: nat)
    requires recordBytes > 0 && rowWidth > 0
    requires |values| == |bytes| / recordBytes
    requires forall k :: 0 <= k < |values| ==> c.decode(ChunksExact(bytes, recordBytes)[k]) == Some(values[k])
    requires i < |values| / rowWidth && j < rowWidth
    ensures EntryIsRecord(bytes, c, recordBytes, rowWidth, ChunksExact(values, rowWidth), i, j)
  {
    var lo, hi := i * rowWidth, (i + 1) * rowWidth;
    RowMajorIndex(|values|, rowWidth, i, j);
    ChunkAt(values, rowWidth, i);
    SliceEntry(values, lo, hi, j);
    ChunkAt(bytes, recordBytes, lo + j);
  }

  lemma SliceEntry<T>(s: seq<T>, lo: nat, hi: nat, j: nat)
    requires lo <= hi <= |s| && j < hi - lo
    ensures s[lo..hi][j] == s[lo + j]
  {
  }

  /** `PublicCoefficients::deserialize(bytes, t_prime)`. */
  function DeserializeCoefficients(bytes: seq<byte>, tPrime: nat, points: Codec<Point>)
    : (r: Result<PublicCoefficients, DecodeError>)
    ensures var records := ChunksExact(bytes, POINT_BYTES);
      r.Err? <==> tPrime == 0 || exists k :: 0 <= k < |records| && points.decode(records[k]).None?
    ensures tPrime == 0 ==> r.Err?
    ensures r.Err? && tPrime > 0 ==> r.error == InvalidPoint
    ensures r.Ok? ==> (|r.value| == (|bytes| / POINT_BYTES) / tPrime &&
      forall i :: 0 <= i < |r.value| ==> |r.value[i]| == tPrime)
    ensures r.Ok? ==> forall i, j :: 0 <= i < |r.value| && 0 <= j < tPrime ==>
      EntryIsRecord(bytes, points, POINT_BYTES, tPrime, r.value, i, j)
  {
    DecodeTable(bytes, points, POINT_BYTES, tPrime, InvalidPoint)
  }

  /**
   * `Dealing::deserialize(coefficients, scalars, group_size, t_prime)`: the
   * coefficients are read first, so their failure is the one reported.
   */
  function DeserializeDealing(coefficients: seq<byte>, shares: seq<byte>, groupSize: nat, tPrime: nat,
                              points: Codec<Point>, scalars: Codec<Scalar>): (r: Result<Dealing, DecodeError>)
    ensures r.Ok? <==>
      DeserializeCoefficients(coefficients, tPrime, points).Ok? &&
      DecodeTable(shares, scalars, SCALAR_BYTES, groupSize, InvalidScalar).Ok?
    ensures DeserializeCoefficients(coefficients, tPrime, points).Err? ==>
      r == Err(DeserializeCoefficients(coefficients, tPrime, points).error)
  {
    match DeserializeCoefficients(coefficients, tPrime, points)
    case Err(e) => Err(e)
    case Ok(pc) =>
      match DecodeTable(shares, scalars, SCALAR_BYTES, groupSize, InvalidScalar)
      case Err(e) => Err(e)
      case Ok(s) => Ok(Dealing(pc, s))
  }

  /** Decoding the encodings of a sequence of values gives the values back. */
  lemma {:induction false} DecodeAllEncoded<T(!new)>(xs: seq<T>, c: Codec<T>, w: nat)
    requires FixedWidth(c, w)
    ensures DecodeAll(MapSeq(c.encode, xs), c) == Some(xs)
  {
    var pieces := MapSeq(c.encode, xs);
    if |xs| > 0 {
      assert pieces[1..] == MapSeq(c.encode, xs[1..]);
      DecodeAllEncoded(xs[1..], c, w);
      assert c.decode(pieces[0]) == Some(xs[0]);
      assert [xs[0]] + xs[1..] == xs;
    }
  }

  /** Reading back a table written by `EncodeTable` with the right row width gives the table. */
  lemma TableRoundTrip<T(!new)>(t: seq<seq<T>>, c: Codec<T>, w: nat, rowWidth: nat, invalid: DecodeError)
    requires w > 0 && FixedWidth(c, w)
    requires rowWidth > 0 && Rectangular(t, |t|, rowWidth)
    ensures DecodeTable(EncodeTable(t, c), c, w, rowWidth, invalid) == Ok(t)
  {
    ConcatNested(c.encode, t);
    var xs := Concat(t);
    var pieces := MapSeq(c.encode, xs);
    ChunksOfConcat(pieces, w);
    DecodeAllEncoded(xs, c, w);
    ChunksOfConcat(t, rowWidth);
  }

  /**
   * The round trip the serialisation test checks: a dealing whose coefficient
   * rows all have length `t_prime` and whose share rows all have length
   * `group_size` is read back unchanged.
   */
  lemma DealingRoundTrip(d: Dealing, groupSize: nat, tPrime: nat, points: Codec<Point>, scalars: Codec<Scalar>)
    requires FixedWidth(points, POINT_BYTES) && FixedWidth(scalars, SCALAR_BYTES)
    requires tPrime > 0 && Rectangular(d.coefficients, |d.coefficients|, tPrime)
    requires groupSize > 0 && Rectangular(d.shares, |d.shares|, groupSize)
    ensures var bytes := SerializeDealing(d, points, scalars);
      DeserializeDealing(bytes.0, bytes.1, groupSize, tPrime, points, scalars) == Ok(d)
  {
    TableRoundTrip(d.coefficients, points, POINT_BYTES, tPrime, InvalidPoint);
    TableRoundTrip(d.shares, scalars, SCALAR_BYTES, groupSize, InvalidScalar);
  }

  /**
   * `chunks_exact` makes reading ignore a trailing partial row of
   * coefficients followed by a trailing partial record.
   */
  lemma TrailingPartsDropped(pc: PublicCoefficients, extra: seq<Point>, junk: seq<byte>, tPrime: nat,
                             points: Codec<Point>)
    requires FixedWidth(points, POINT_BYTES)
    requires tPrime > 0 && Rectangular(pc, |pc|, tPrime)
    requires |extra| < tPrime && |junk| < POINT_BYTES
    ensures DeserializeCoefficients(SerializeCoefficients(pc, points) + Concat(MapSeq(points.encode, extra)) + junk,
                                    tPrime, points) == Ok(pc)
  {
    var xs := Concat(pc);
    assert MapSeq(points.encode, xs + extra) == MapSeq(points.encode, xs) + MapSeq(points.encode, extra);
    ConcatAppend(MapSeq(points.encode, xs), MapSeq(points.encode, extra));
    ConcatNested(points.encode, pc);
    assert SerializeCoefficients(pc, points) + Concat(MapSeq(points.encode, extra))
        == Concat(MapSeq(points.encode, xs + extra));
    RecordsOfEncoding(xs + extra, junk, points, POINT_BYTES);
    RowsOfValues(pc, extra, tPrime);
  }

  /** The records of encoded values, followed by a partial record, decode to the values. */
  lemma RecordsOfEncoding<T(!new)>(xs: seq<T>, junk: seq<byte>, c: Codec<T>, w: nat)
    requires w > 0 && FixedWidth(c, w) && |junk| < w
    ensures DecodeAll(ChunksExact(Concat(MapSeq(c.encode, xs)) + junk, w), c) == Some(xs)
  {
    var whole := MapSeq(c.encode, xs);
    var bytes := Concat(whole);
    ConcatLength(whole, w);
    DivUnique(|bytes|, w, |whole|, 0);
    ChunksIgnoreShortTail(bytes, junk, w);
    ChunksOfConcat(whole, w);
    DecodeAllEncoded(xs, c, w);
  }

  /** Whole rows followed by a partial row re-chunk to the whole rows. */
  lemma RowsOfValues<T>(t: seq<seq<T>>, extra: seq<T>, w: nat)
    requires w > 0 && Rectangular(t, |t|, w) && |extra| < w
    ensures ChunksExact(Concat(t) + extra, w) == t
  {
    ConcatLength(t, w);
    DivUnique(|Concat(t)|, w, |t|, 0);
    ChunksIgnoreShortTail(Concat(t), extra, w);
    ChunksOfConcat(t, w);
  }
}

=== FILE: tables.dfy ===
/**
 * Two-dimensional tables (`Vec<Vec<T>>`) and the row-major operations the
 * bivariate types perform on them: the element-wise sums of `add` and
 * `add_assign`, and the flatten / `chunks_exact` pair used by serialisation.
 */
module Tables {
  import opened Wrappers

  /** `t` has exactly `rows` rows, each of exactly `cols` entries. */
  predicate Rectangular<T>(t: seq<seq<T>>, rows: nat, cols: nat)
  {
    |t| == rows && forall i :: 0 <= i < |t| ==> |t[i]| == cols
  }

  /** Two tables of the same shape with the same entries are the same table. */
  lemma RectangularEqual<T>(a: seq<seq<T>>, b: seq<seq<T>>, rows: nat, cols: nat)
    requires Rectangular(a, rows, cols) && Rectangular(b, rows, cols)
    requires forall i, j :: 0 <= i < rows && 0 <= j < cols ==> a[i][j] == b[i][j]
    ensures a == b
  {
    forall i | 0 <= i < rows
      ensures a[i] == b[i]
    {
    }
  }

  /** Applies `f` to every element of `s`, keeping the order. */
  function MapSeq<T, U>(f: T -> U, s: seq<T>): (r: seq<U>)
    ensures |r| == |s|
    ensures forall k :: 0 <= k < |s| ==> r[k] == f(s[k])
  {
    seq(|s|, k requires 0 <= k < |s| => f(s[k]))
  }

  /**
   * A sufficient condition for `add` and `add_assign` to index nothing out
   * of bounds: both loops run `i` over the rows of `a` and `j` over the
   * length of `a`'s first row, reading `a[i][j]` and `b[i][j]`. It asks for
   * a row of `b` per row of `a` even when the first row is empty and the
   * inner loop reads nothing; callers pass tables of the same shape.
   */
  predicate AddFits<T>(a: seq<seq<T>>, b: seq<seq<T>>)
  {
    forall i :: 0 <= i < |a| ==> |a[0]| <= |a[i]| && i < |b| && |a[0]| <= |b[i]|
  }

  /** `PublicCoefficients::add`: a fresh table of `a`'s first-row width. */
  function AddTables<T>(a: seq<seq<T>>, b: seq<seq<T>>, plus: (T, T) -> T): (r: seq<seq<T>>)
    requires AddFits(a, b)
  {
    seq(|a|, i requires 0 <= i < |a| =>
      seq(|a[0]|, j requires 0 <= j < |a[0]| => plus(a[i][j], b[i][j])))
  }

  /** Every entry of the sum is the sum of the entries at the same position. */
  lemma AddTablesEntries<T>(a: seq<seq<T>>, b: seq<seq<T>>, plus: (T, T) -> T)
    requires AddFits(a, b)
    ensures |AddTables(a, b, plus)| == |a|
    ensures |a| > 0 ==> Rectangular(AddTables(a, b, plus), |a|, |a[0]|)
    ensures forall i, j :: 0 <= i < |a| && 0 <= j < |a[0]| ==>
      AddTables(a, b, plus)[i][j] == plus(a[i][j], b[i][j])
  {
  }

  /**
   * `add_assign`: updates `a` in place. Only the first `|a[0]|` entries of
   * each row are touched; the rest of a longer row is kept as it was.
   */
  method AddAssign<T>(a: seq<seq<T>>, b: seq<seq<T>>, plus: (T, T) -> T) returns (s: seq<seq<T>>)
    requires AddFits(a, b)
    ensures |s| == |a|
    ensures forall i :: 0 <= i < |a| ==> |s[i]| == |a[i]|
    ensures forall i, j :: 0 <= i < |a| && 0 <= j < |a[i]| ==>
      s[i][j] == if j < |a[0]| then plus(a[i][j], b[i][j]) else a[i][j]
    ensures (|a| == 0 || Rectangular(a, |a|, |a[0]|)) ==> s == AddTables(a, b, plus)
  {
    s := a;
    var i := 0;
    while i < |a|
      invariant 0 <= i <= |a|
      invariant |s| == |a|
      invariant forall k :: 0 <= k < |a| ==> |s[k]| == |a[k]|
      invariant forall k, j :: 0 <= k < i && 0 <= j < |a[k]| ==>
        s[k][j] == if j < |a[0]| then plus(a[k][j], b[k][j]) else a[k][j]
      invariant forall k :: i <= k < |a| ==> s[k] == a[k]
    {
      var j := 0;
      while j < |a[0]|
        invariant 0 <= j <= |a[0]|
        invariant |s| == |a|
        invariant forall k :: 0 <= k < |a| ==> |s[k]| == |a[k]|
        invariant forall k, l :: 0 <= k < i && 0 <= l < |a[k]| ==>
          s[k][l] == if l < |a[0]| then plus(a[k][l], b[k][l]) else a[k][l]
        invariant forall k :: i < k < |a| ==> s[k] == a[k]
        invariant forall l :: 0 <= l < |a[i]| ==>
          s[i][l] == if l < j then plus(a[i][l], b[i][l]) else a[i][l]
      {
        s := s[i := s[i][j := plus(s[i][j], b[i][j])]];
        j := j + 1;
      }
      i := i + 1;
    }
    if |a| > 0 && Rectangular(a, |a|, |a[0]|) {
      AddTablesEntries(a, b, plus);
      var sum := AddTables(a, b, plus);
      forall k | 0 <= k < |a|
        ensures s[k] == sum[k]
      {
        assert |s[k]| == |sum[k]|;
      }
    }
  }

  /** Euclidean division is unique: quotient and remainder are determined. */
  lemma DivUnique(n: int, w: int, q: int, m: int)
    requires w > 0 && 0 <= m < w && n == q * w + m
    ensures n / w == q && n % w == m
  {
    var d := n / w - q;
    assert d * w == m - n % w;
    assert d > 0 ==> d * w >= w;
    assert d < 0 ==> d * w <= -w;
  }

  /**
   * `chunks_exact(w)`: consecutive pieces of exactly `w` elements; a final
   * piece shorter than `w` is dropped.
   */
  function ChunksExact<T>(s: seq<T>, w: nat): (r: seq<seq<T>>)
    requires w > 0
    ensures |r| == |s| / w
    ensures forall k :: 0 <= k < |r| ==> |r[k]| == w
    decreases |s|
  {
    if |s| < w then
      DivUnique(|s|, w, 0, |s|);
      []
    else
      DivUnique(|s|, w, (|s| - w) / w + 1, (|s| - w) % w);
      [s[..w]] + ChunksExact(s[w..], w)
  }

  /** The `k`-th whole window of width `w`: elements `k·w` up to `(k+1)·w`. */
  function Window<T>(s: seq<T>, w: nat, k: nat): (r: seq<T>)
    requires w > 0 && k < |s| / w
    ensures |r| == w
  {
    ChunkBound(|s|, w, k);
    s[k * w..(k + 1) * w]
  }

  /** Piece `k` of `chunks_exact(w)` is the window `[k·w, (k+1)·w)` of the input. */
  lemma {:induction false} ChunkAt<T>(s: seq<T>, w: nat, k: nat)
    requires w > 0 && k < |s| / w
    ensures (k + 1) * w <= |s|
    ensures ChunksExact(s, w)[k] == s[k * w..(k + 1) * w] == Window(s, w, k)
  {
    ChunkBound(|s|, w, k);
    var r := ChunksExact(s, w);
    var rest := ChunksExact(s[w..], w);
    assert r == [s[..w]] + rest;
    if k > 0 {
      assert k - 1 < |rest|;
      ChunkAt(s[w..], w, k - 1);
      NextMultiple(k, w);
      ShiftWindow(s, w, (k - 1) * w);
      assert r[k] == rest[k - 1];
    }
  }

  /** A whole chunk fits: `k < n / w` gives `(k + 1) * w <= n`. */
  lemma ChunkBound(n: nat, w: nat, k: nat)
    requires w > 0 && k < n / w
    ensures (k + 1) * w <= n
  {
    DivMulLe(n, w);
    MulLe(k + 1, n / w, w);
  }

  /** Entry `j` of row `i` of a table of `n / w` rows of width `w` is element `i·w + j` of the `n`. */
  lemma RowMajorIndex(n: nat, w: nat, i: nat, j: nat)
    requires w > 0 && i < n / w && j < w
    ensures i * w + j < (i + 1) * w <= n
  {
    ChunkBound(n, w, i);
    assert (i + 1) * w == i * w + w;
  }

  lemma DivMulLe(n: nat, w: nat)
    requires w > 0
    ensures (n / w) * w <= n
  {
  }

  /** Multiplying by the same factor keeps `<=`. */
  lemma MulLe(a: nat, b: nat, c: nat)
    requires a <= b
    ensures a * c <= b * c
  {
    assert b * c - a * c == (b - a) * c;
  }

  lemma NextMultiple(k: nat, w: nat)
    requires k > 0
    ensures k * w == (k - 1) * w + w && (k + 1) * w == k * w + w
  {
  }

  /** A window of `s[w..]` is the window of `s` shifted by `w`. */
  lemma ShiftWindow<T>(s: seq<T>, w: nat, a: nat)
    requires w + a + w <= |s|
    ensures s[w..][a..a + w] == s[w + a..w + a + w]
  {
  }

  /** Flattening a table of rows of width `w` and re-chunking by `w` gives the table back. */
  lemma {:induction false} ChunksOfConcat<T>(t: seq<seq<T>>, w: nat)
    requires w > 0 && Rectangular(t, |t|, w)
    ensures ChunksExact(Concat(t), w) == t
  {
    if |t| > 0 {
      var c := Concat(t);
      assert c == t[0] + Concat(t[1..]);
      assert c[..w] == t[0];
      assert c[w..] == Concat(t[1..]);
      ChunksOfConcat(t[1..], w);
    }
  }

  /** Appending fewer than `w` elements to whole pieces changes nothing. */
  lemma {:induction false} ChunksIgnoreShortTail<T>(s: seq<T>, tail: seq<T>, w: nat)
    requires w > 0 && |s| % w == 0 && |tail| < w
    ensures ChunksExact(s + tail, w) == ChunksExact(s, w)
    decreases |s|
  {
    if |s| > 0 {
      var q := |s| / w;
      assert |s| == q * w;
      assert q >= 1 by {
        assert q <= 0 ==> q * w <= 0;
      }
      DivUnique(|s| - w, w, q - 1, 0);
      assert (s + tail)[..w] == s[..w];
      assert (s + tail)[w..] == s[w..] + tail;
      ChunksIgnoreShortTail(s[w..], tail, w);
    } else {
      assert s + tail == tail;
    }
  }

  /** The length of a flattened table is the sum of its row lengths. */
  lemma {:induction false} ConcatLength<T>(t: seq<seq<T>>, w: nat)
    requires Rectangular(t, |t|, w)
    ensures |Concat(t)| == |t| * w
  {
    if |t| > 0 {
      ConcatLength(t[1..], w);
    }
  }

  lemma {:induction false} ConcatAppend<T>(a: seq<seq<T>>, b: seq<seq<T>>)
    ensures Concat(a + b) == Concat(a) + Concat(b)
  {
    if |a| > 0 {
      assert (a + b)[1..] == a[1..] + b;
      ConcatAppend(a[1..], b);
    } else {
      assert a + b == b;
    }
  }

  /**
   * Encoding a table row by row and joining the rows (two nested
   * `flat_map`s) equals encoding the row-major flattening of the table.
   */
  lemma {:induction false} ConcatNested<T, U>(f: T -> seq<U>, t: seq<seq<T>>)
    ensures Concat(MapSeq((row: seq<T>) => Concat(MapSeq(f, row)), t))
         == Concat(MapSeq(f, Concat(t)))
  {
    if |t| > 0 {
      var g := (row: seq<T>) => Concat(MapSeq(f, row));
      assert MapSeq(g, t)[1..] == MapSeq(g, t[1..]);
      ConcatNested(f, t[1..]);
      assert MapSeq(f, Concat(t)) == MapSeq(f, t[0]) + MapSeq(f, Concat(t[1..]));
      ConcatAppend(MapSeq(f, t[0]), MapSeq(f, Concat(t[1..])));
    }
  }
}

=== FILE: univariate_api.dfy ===
/**
 * The pure scheduling rules inside the coordinator of the univariate
 * threshold-signature benchmark (`run_single_node_threshold_signature` in
 * `crates/univariate-dkg/src/api.rs`): how the message list is cut into
 * one slice per worker thread, how an incoming share is routed to a
 * thread, and how each thread collects shares until it has `t` for every
 * message of its slice. Channels, threads and signature checks are left
 * out; a thread's inbox is the sequence of shares routed to it.
 */
module UnivariateDriver {
  import opened Wrappers
  import Tables

  const NUM_THREADS: nat := 16

  /** `messages.len() / NUM_THREADS`, rounded down. */
  function RangeSize(count: nat): (rs: nat)
    ensures rs * NUM_THREADS <= count < (rs + 1) * NUM_THREADS
  {
    count / NUM_THREADS
  }

  /** The value of `idx` after `i` steps of `idx += range_size`. */
  function Offset(i: nat, rs: nat): nat
  {
    if i == 0 then 0 else Offset(i - 1, rs) + rs
  }

  lemma {:induction false} OffsetIsProduct(i: nat, rs: nat)
    ensures Offset(i, rs) == i * rs
  {
    if i > 0 {
      OffsetIsProduct(i - 1, rs);
      assert i * rs == (i - 1) * rs + rs;
    }
  }

  /** The last offset stays inside the message list. */
  lemma LastOffsetFits(count: nat, i: nat)
    requires i <= NUM_THREADS
    ensures Offset(i, RangeSize(count)) <= count
  {
    var rs := RangeSize(count);
    OffsetIsProduct(i, rs);
    Tables.MulLe(i, NUM_THREADS, rs);
    assert NUM_THREADS * rs == rs * NUM_THREADS;
  }

  /**
   * The slice of thread `i`: `range_size` messages starting at `idx`,
   * except that the last thread takes everything from `idx` to the end.
   */
  function Slice<M>(messages: seq<M>, i: nat): (s: seq<M>)
    requires i < NUM_THREADS
    ensures i < NUM_THREADS - 1 ==> |s| == RangeSize(|messages|)
  {
    var rs := RangeSize(|messages|);
    LastOffsetFits(|messages|, i + 1);
    var idx := Offset(i, rs);
    if i == NUM_THREADS - 1 then messages[idx..] else messages[idx..idx + rs]
  }

  /**
   * Thread `i < 15` gets `messages[i * range_size .. (i + 1) * range_size]`
   * and thread 15 gets `messages[15 * range_size ..]`.
   */
  lemma SliceBounds<M>(messages: seq<M>, i: nat)
    requires i < NUM_THREADS
    ensures var rs := RangeSize(|messages|);
      (i + 1) * rs <= |messages| &&
      Slice(messages, i) == if i == NUM_THREADS - 1 then messages[i * rs..] else messages[i * rs..(i + 1) * rs]
  {
    var rs := RangeSize(|messages|);
    OffsetIsProduct(i, rs);
    OffsetIsProduct(i + 1, rs);
    LastOffsetFits(|messages|, i + 1);
  }

  /** Appending slice `i` to everything before it reaches the next offset, or the end. */
  lemma SliceExtends<M>(messages: seq<M>, i: nat)
    requires i < NUM_THREADS
    ensures Offset(i + 1, RangeSize(|messages|)) <= |messages|
    ensures messages[..Offset(i, RangeSize(|messages|))] + Slice(messages, i) ==
      if i == NUM_THREADS - 1 then messages else messages[..Offset(i + 1, RangeSize(|messages|))]
  {
    var rs := RangeSize(|messages|);
    LastOffsetFits(|messages|, i + 1);
    var idx := Offset(i, rs);
    if i == NUM_THREADS - 1 {
      assert messages[..idx] + messages[idx..] == messages;
    } else {
      assert messages[..idx] + messages[idx..idx + rs] == messages[..idx + rs];
    }
  }

  /** The partition loop: the slices, built while `idx` steps by `range_size`. */
  method PartitionMessages<M>(messages: seq<M>) returns (slices: seq<seq<M>>)
    ensures |slices| == NUM_THREADS
    ensures forall i :: 0 <= i < NUM_THREADS ==> slices[i] == Slice(messages, i)
    ensures forall i :: 0 <= i < NUM_THREADS - 1 ==> |slices[i]| == RangeSize(|messages|)
    ensures Concat(slices) == messages
  {
    var rs := RangeSize(|messages|);
    slices := [];
    var idx := 0;
    var i := 0;
    while i < NUM_THREADS
      invariant 0 <= i <= NUM_THREADS && idx == Offset(i, rs) && idx <= |messages|
      invariant SlicesSoFar(messages, slices, i)
      invariant Concat(slices) == if i == NUM_THREADS then messages else messages[..idx]
    {
      SliceExtends(messages, i);
      var piece := if i == NUM_THREADS - 1 then messages[idx..] else messages[idx..idx + rs];
      assert piece == Slice(messages, i);
      PartitionStep(messages, slices, i);
      slices := slices + [piece];
      idx := idx + rs;
      i := i + 1;
    }
  }

  /** `slices` holds the slices of the first `n` threads. */
  ghost predicate SlicesSoFar<M>(messages: seq<M>, slices: seq<seq<M>>, n: nat)
    requires n <= NUM_THREADS
  {
    |slices| == n && forall k :: 0 <= k < n ==> slices[k] == Slice(messages, k)
  }

  /** One more iteration of the partition loop. */
  lemma PartitionStep<M>(messages: seq<M>, slices: seq<seq<M>>, i: nat)
    requires i < NUM_THREADS && SlicesSoFar(messages, slices, i)
    requires Offset(i, RangeSize(|messages|)) <= |messages|
    requires Concat(slices) == messages[..Offset(i, RangeSize(|messages|))]
    ensures SlicesSoFar(messages, slices + [Slice(messages, i)], i + 1)
    ensures Offset(i + 1, RangeSize(|messages|)) <= |messages|
    ensures Concat(slices + [Slice(messages, i)]) ==
      if i == NUM_THREADS - 1 then messages else messages[..Offset(i + 1, RangeSize(|messages|))]
  {
    var piece := Slice(messages, i);
    SliceExtends(messages, i);
    Tables.ConcatAppend(slices, [piece]);
    assert Concat([piece]) == piece;
  }

  lemma RouteArith(i: nat, rs: nat, msg: nat)
    requires i < NUM_THREADS && i * rs <= msg < i * rs + rs
    ensures msg < NUM_THREADS * rs && msg - i * rs < rs
    ensures rs > 0 && msg / rs == i && msg % rs == msg - i * rs
  {
    assert (i + 1) * rs == i * rs + rs;
    assert (i + 1) * rs <= NUM_THREADS * rs;
    Tables.DivUnique(msg, rs, i, msg - i * rs);
  }

  /**
   * The routing loop: the share for message `msg` goes to the first thread
   * `i` with `msg < (i + 1) * range_size`, at index `msg - i * range_size`
   * of that thread's slice; if no thread matches, the share is dropped.
   */
  method Route(count: nat, msg: nat) returns (r: Option<(nat, nat)>)
    ensures r.Some? <==> msg < NUM_THREADS * RangeSize(count)
    ensures r.Some? ==>
      (r.value.0 < NUM_THREADS && r.value.1 < RangeSize(count) && msg == r.value.0 * RangeSize(count) + r.value.1)
    ensures r.Some? ==> r.value == (msg / RangeSize(count), msg % RangeSize(count))
  {
    var rs := RangeSize(count);
    var idx := 0;
    var i := 0;
    while i < NUM_THREADS
      invariant 0 <= i <= NUM_THREADS && idx == Offset(i, rs)
      invariant msg >= idx
    {
      if msg < idx + rs {
        OffsetIsProduct(i, rs);
        RouteArith(i, rs, msg);
        return Some((i, msg - i * rs));
      }
      idx := idx + rs;
      i := i + 1;
    }
    OffsetIsProduct(NUM_THREADS, rs);
    return None;
  }

  /** A routed share reaches the slice entry of the message it was signed for. */
  lemma RoutedShareFindsMessage<M>(messages: seq<M>, i: nat, local: nat)
    requires i < NUM_THREADS && local < RangeSize(|messages|)
    ensures local < |Slice(messages, i)| && i * RangeSize(|messages|) + local < |messages|
    ensures Slice(messages, i)[local] == messages[i * RangeSize(|messages|) + local]
  {
    var rs := RangeSize(|messages|);
    var lo := Offset(i, rs);
    LastOffsetFits(|messages|, i + 1);
    assert lo + rs <= |messages|;
    var s := Slice(messages, i);
    assert s == if i == NUM_THREADS - 1 then messages[lo..] else messages[lo..lo + rs];
    assert s[local] == messages[lo + local];
    OffsetIsProduct(i, rs);
  }

  // ----- One worker thread -----

  /** A share as a worker thread receives it: sender, index into its slice, signature. */
  datatype Share<S> = Share(sender: Id, msg: nat, sig: S)

  /**
   * The `signatures` map of a thread: for each message of its slice not yet
   * completed, the signatures received so far keyed by the sender's index.
   */
  datatype Collector<S> = Collector(pending: map<nat, map<nat, S>>)

  /** Every message index of a slice of `count` messages starts with no signature. */
  function Start<S>(count: nat): (c: Collector<S>)
    ensures forall m: nat :: m in c.pending <==> m < count
    ensures forall m :: m in c.pending ==> c.pending[m] == map[]
  {
    if count == 0 then Collector(map[])
    else
      var c := Start<S>(count - 1);
      Collector(c.pending[count - 1 := map[]])
  }

  /**
   * One iteration of the thread's loop: a share from a univariate sender
   * for a pending message is stored under the sender (a repeat replaces
   * the earlier one); once `t` are stored the message is completed and its
   * entry removed. Anything else changes nothing.
   */
  function Receive<S>(c: Collector<S>, sh: Share<S>, t: nat): (r: Collector<S>)
    ensures forall m :: m != sh.msg ==> (m in r.pending <==> m in c.pending)
    ensures forall m :: m != sh.msg && m in r.pending ==> r.pending[m] == c.pending[m]
    ensures !(sh.sender.Univariate? && sh.msg in c.pending) ==> r == c
    ensures sh.sender.Univariate? && sh.msg in c.pending ==>
      var keys := c.pending[sh.msg].Keys + {sh.sender.index};
      (sh.msg in r.pending <==> |keys| < t) &&
      (sh.msg in r.pending ==> r.pending[sh.msg].Keys == keys)
  {
    if sh.sender.Univariate? && sh.msg in c.pending then
      var group: map<nat, S> := c.pending[sh.msg][sh.sender.index := sh.sig];
      if |group| >= t then Collector(c.pending - {sh.msg})
      else Collector(c.pending[sh.msg := group])
    else c
  }

  /** The thread state after handling every share of `inbox` in order. */
  function Feed<S>(c: Collector<S>, inbox: seq<Share<S>>, t: nat): Collector<S>
  {
    if |inbox| == 0 then c else Receive(Feed(c, inbox[..|inbox| - 1], t), inbox[|inbox| - 1], t)
  }

  /** The distinct univariate senders of shares for message `m` in `inbox`. */
  function Senders<S>(inbox: seq<Share<S>>, m: nat): set<nat>
  {
    if |inbox| == 0 then {}
    else
      var last := inbox[|inbox| - 1];
      Senders(inbox[..|inbox| - 1], m) + (if last.sender.Univariate? && last.msg == m then {last.sender.index} else {})
  }

  /**
   * A message of the slice is still pending exactly when fewer than
   * `max(t, 1)` distinct senders have sent a share for it (repeats from one
   * sender do not count twice), and then its entry holds one signature per
   * such sender.
   */
  lemma {:induction false} PendingIffFewSenders<S>(count: nat, inbox: seq<Share<S>>, t: nat, m: nat)
    ensures m in Feed(Start<S>(count), inbox, t).pending <==>
      m < count && |Senders(inbox, m)| < (if t == 0 then 1 else t)
    ensures m in Feed(Start<S>(count), inbox, t).pending ==>
      Feed(Start<S>(count), inbox, t).pending[m].Keys == Senders(inbox, m)
  {
    if |inbox| > 0 {
      var pre := inbox[..|inbox| - 1];
      var last := inbox[|inbox| - 1];
      PendingIffFewSenders(count, pre, t, m);
      SendersOfLast(inbox, m);
      var c := Feed(Start<S>(count), pre, t);
      var r := Receive(c, last, t);
      assert Feed(Start<S>(count), inbox, t) == r;
      if last.sender.Univariate? && last.msg == m {
        if m in c.pending {
          assert c.pending[m].Keys + {last.sender.index} == Senders(inbox, m);
        } else {
          assert r == c;
        }
      } else if last.msg == m {
        assert r == c;
      }
    }
  }

  /** The last share adds its sender to the senders of its own message and to no other. */
  lemma SendersOfLast<S>(inbox: seq<Share<S>>, m: nat)
    requires |inbox| > 0
    ensures var pre := inbox[..|inbox| - 1];
      var last := inbox[|inbox| - 1];
      if last.sender.Univariate? && last.msg == m then
        Senders(inbox, m) == Senders(pre, m) + {last.sender.index} &&
        |Senders(pre, m)| <= |Senders(inbox, m)| && 0 < |Senders(inbox, m)|
      else Senders(inbox, m) == Senders(pre, m)
  {
    var pre := inbox[..|inbox| - 1];
    var last := inbox[|inbox| - 1];
    if last.sender.Univariate? && last.msg == m {
      var s := Senders(pre, m);
      if last.sender.index in s {
        assert s + {last.sender.index} == s;
      } else {
        assert |s + {last.sender.index}| == |s| + 1;
      }
    }
  }

  /** A thread is done exactly when every message of its slice has `max(t, 1)` distinct senders. */
  lemma DoneIffAllComplete<S>(count: nat, inbox: seq<Share<S>>, t: nat)
    ensures |Feed(Start<S>(count), inbox, t).pending| == 0 <==>
      forall m :: 0 <= m < count ==> |Senders(inbox, m)| >= (if t == 0 then 1 else t)
  {
    var c := Feed(Start<S>(count), inbox, t);
    forall m | 0 <= m < count
      ensures m in c.pending <==> |Senders(inbox, m)| < (if t == 0 then 1 else t)
    {
      PendingIffFewSenders(count, inbox, t, m);
    }
    if |c.pending| != 0 {
      var m :| m in c.pending;
      PendingIffFewSenders(count, inbox, t, m);
    }
  }

  /** Some message of the slice is still pending after `prefix`. */
  predicate Busy<S>(count: nat, prefix: seq<Share<S>>, t: nat)
  {
    |Feed(Start<S>(count), prefix, t).pending| > 0
  }

  /**
   * The thread's `while signatures.len() > 0` loop over its inbox: it
   * stops consuming once nothing is pending, and otherwise runs until the
   * inbox is exhausted (where the real thread would block).
   */
  method Collect<S>(count: nat, inbox: seq<Share<S>>, t: nat) returns (c: Collector<S>, used: nat)
    ensures used <= |inbox|
    ensures c == Feed(Start<S>(count), inbox[..used], t)
    ensures used < |inbox| ==> |c.pending| == 0
    ensures forall k :: 0 <= k < used ==> Busy(count, inbox[..k], t)
  {
    c := Start<S>(count);
    used := 0;
    while used < |inbox| && |c.pending| > 0
      invariant used <= |inbox|
      invariant c == Feed(Start<S>(count), inbox[..used], t)
      invariant BusyBefore(count, inbox, t, used)
    {
      BusyBeforeStep(count, inbox, t, used);
      FeedStep(Start<S>(count), inbox, used, t);
      c := Receive(c, inbox[used], t);
      used := used + 1;
    }
  }

  /** The thread was busy before each of the first `n` shares. */
  predicate BusyBefore<S>(count: nat, inbox: seq<Share<S>>, t: nat, n: nat)
    requires n <= |inbox|
  {
    forall k :: 0 <= k < n ==> Busy(count, inbox[..k], t)
  }

  lemma BusyBeforeStep<S>(count: nat, inbox: seq<Share<S>>, t: nat, n: nat)
    requires n < |inbox| && BusyBefore(count, inbox, t, n) && Busy(count, inbox[..n], t)
    ensures BusyBefore(count, inbox, t, n + 1)
  {
  }

  /** Handling one more share is one more `Receive`. */
  lemma FeedStep<S>(c: Collector<S>, inbox: seq<Share<S>>, n: nat, t: nat)
    requires n < |inbox|
    ensures Feed(c, inbox[..n + 1], t) == Receive(Feed(c, inbox[..n], t), inbox[n], t)
  {
    assert inbox[..n + 1][..n] == inbox[..n];
  }

  // ----- The last slice and the routing rule -----

  /** The last slice holds `range_size` messages plus the remainder of the division. */
  lemma LastSliceLength<M>(messages: seq<M>)
    ensures |Slice(messages, NUM_THREADS - 1)| == RangeSize(|messages|) + |messages| % NUM_THREADS
  {
    var rs := RangeSize(|messages|);
    OffsetIsProduct(NUM_THREADS - 1, rs);
    Tables.DivUnique(|messages|, NUM_THREADS, rs, |messages| - NUM_THREADS * rs);
  }

  lemma {:induction false} NoSendersWithoutShares<S>(inbox: seq<Share<S>>, m: nat)
    requires forall k :: 0 <= k < |inbox| ==> inbox[k].msg != m
    ensures Senders(inbox, m) == {}
  {
    if |inbox| > 0 {
      NoSendersWithoutShares(inbox[..|inbox| - 1], m);
    }
  }

  /**
   * As written, routing never reaches the last thread's entries past
   * `range_size`: when the message count is not a multiple of 16, every
   * share `Route` can deliver to thread 15 has a local index below
   * `range_size`, so the last entry of its slice stays pending for ever and
   * the thread never finishes, whatever it receives.
   */
  lemma LastThreadStarves<M, S>(messages: seq<M>, inbox: seq<Share<S>>, t: nat)
    requires |messages| % NUM_THREADS != 0
    requires forall k :: 0 <= k < |inbox| ==> inbox[k].msg < RangeSize(|messages|)
    ensures Busy(|Slice(messages, NUM_THREADS - 1)|, inbox, t)
  {
    var count := |Slice(messages, NUM_THREADS - 1)|;
    LastSliceLength(messages);
    var m := count - 1;
    NoSendersWithoutShares(inbox, m);
    PendingIffFewSenders(count, inbox, t, m);
  }

  /** With 17 messages, message 16 belongs to thread 15 but no thread accepts its shares. */
  lemma SeventeenMessages<M>(messages: seq<M>)
    requires |messages| == 17
    ensures |Slice(messages, NUM_THREADS - 1)| == 2
    ensures !(16 < NUM_THREADS * RangeSize(|messages|))
  {
    LastSliceLength(messages);
  }

  /**
   * The routing rule the partition calls for: thread `min(msg / range_size, 15)`
   * (thread 15 when `range_size` is zero), at the offset from that thread's
   * first message; only an index past the message list is dropped.
   */
  function FixedRoute(count: nat, msg: nat): (r: Option<(nat, nat)>)
    ensures r.Some? <==> msg < count
    ensures r.Some? ==> r.value.0 < NUM_THREADS
  {
    var rs := RangeSize(count);
    if msg >= count then None
    else
      var i := if rs == 0 || msg / rs >= NUM_THREADS - 1 then NUM_THREADS - 1 else msg / rs;
      Some((i, msg - i * rs))
  }

  /** The number of messages of slice `i`, from the partition's offsets. */
  function SliceLength(count: nat, i: nat): nat
    requires i < NUM_THREADS
  {
    var rs := RangeSize(count);
    LastOffsetFits(count, NUM_THREADS - 1);
    if i == NUM_THREADS - 1 then count - Offset(i, rs) else rs
  }

  lemma SliceIndex<M>(messages: seq<M>, i: nat, local: nat)
    requires i < NUM_THREADS
    ensures |Slice(messages, i)| == SliceLength(|messages|, i)
    ensures local < SliceLength(|messages|, i) ==>
      Offset(i, RangeSize(|messages|)) + local < |messages| &&
      Slice(messages, i)[local] == messages[Offset(i, RangeSize(|messages|)) + local]
  {
    LastOffsetFits(|messages|, i + 1);
  }

  /** The arithmetic of the fixed rule: thread offset plus local index gives back the message index. */
  lemma FixedRouteArith(count: nat, msg: nat)
    requires msg < count
    ensures var (i, local) := FixedRoute(count, msg).value;
      Offset(i, RangeSize(count)) + local == msg && local < SliceLength(count, i)
  {
    var rs := RangeSize(count);
    var (i, local) := FixedRoute(count, msg).value;
    OffsetIsProduct(i, rs);
    assert local == msg - i * rs;
    if rs > 0 && msg / rs < NUM_THREADS - 1 {
      assert i == msg / rs;
      QuotientRemainder(msg, rs);
    } else {
      assert i == NUM_THREADS - 1;
      assert SliceLength(count, i) == count - i * rs;
    }
  }

  /** What is left after taking the whole multiples of `rs` away is the remainder. */
  lemma QuotientRemainder(msg: nat, rs: nat)
    requires rs > 0
    ensures msg - (msg / rs) * rs == msg % rs < rs
  {
  }

  lemma FixedRouteOntoArith(count: nat, i: nat, local: nat)
    requires i < NUM_THREADS && local < SliceLength(count, i)
    ensures Offset(i, RangeSize(count)) + local < count
    ensures FixedRoute(count, Offset(i, RangeSize(count)) + local) == Some((i, local))
  {
    var rs := RangeSize(count);
    LastOffsetFits(count, i + 1);
    OffsetIsProduct(i, rs);
    var msg := i * rs + local;
    if rs > 0 && i < NUM_THREADS - 1 {
      Tables.DivUnique(msg, rs, i, local);
    } else if rs > 0 {
      QuotientPastLast(msg, rs);
    }
  }

  /** An index at or past the last thread's first message has quotient at least 15. */
  lemma QuotientPastLast(msg: nat, rs: nat)
    requires rs > 0 && msg >= (NUM_THREADS - 1) * rs
    ensures msg / rs >= NUM_THREADS - 1
  {
    var q := msg / rs;
    if q < NUM_THREADS - 1 {
      Tables.MulLe(q + 1, NUM_THREADS - 1, rs);
      assert false;
    }
  }

  /**
   * The fixed rule sends the share for every message to the slice entry
   * holding that message.
   */
  lemma FixedRouteCovers<M>(messages: seq<M>, msg: nat)
    requires msg < |messages|
    ensures var (i, local) := FixedRoute(|messages|, msg).value;
      local < |Slice(messages, i)| && Slice(messages, i)[local] == messages[msg]
  {
    var (i, local) := FixedRoute(|messages|, msg).value;
    FixedRouteArith(|messages|, msg);
    SliceIndex(messages, i, local);
  }

  /** Every entry of every slice is the target of the share for its own message. */
  lemma FixedRouteOnto<M>(messages: seq<M>, i: nat, local: nat)
    requires i < NUM_THREADS && local < |Slice(messages, i)|
    ensures i * RangeSize(|messages|) + local < |messages|
    ensures FixedRoute(|messages|, i * RangeSize(|messages|) + local) == Some((i, local))
  {
    SliceIndex(messages, i, local);
    FixedRouteOntoArith(|messages|, i, local);
    OffsetIsProduct(i, RangeSize(|messages|));
  }
}

=== FILE: wrappers.dfy ===
/** Failure-carrying result types shared by the modules of this project. */
module Wrappers {

  /** An optional value: `None` where the source has no value to give. */
  datatype Option<+T> = None | Some(value: T)

  /** A value or the error that the source would raise instead of returning one. */
  datatype Result<+T, +E> = Ok(value: T) | Err(error: E)

  /** An octet (`u8`). */
  type byte = x: int | 0 <= x < 256

  /** The node identifiers of the network layer (`types::Id`). */
  datatype Id = Univariate(index: nat) | Bivariate(group: nat, member: nat)

  /** Row-major concatenation of a sequence of sequences. */
  function Concat<T>(ss: seq<seq<T>>): (r: seq<T>)
  {
    if |ss| == 0 then [] else ss[0] + Concat(ss[1..])
  }

  /** Keeps, in order, the elements that satisfy `keep` (an iterator `filter`). */
  function Filter<T(!new)>(s: seq<T>, keep: T -> bool): (r: seq<T>)
    ensures |r| <= |s|
    ensures forall x :: x in r <==> x in s && keep(x)
  {
    if |s| == 0 then []
    else if keep(s[0]) then [s[0]] + Filter(s[1..], keep)
    else Filter(s[1..], keep)
  }
}
